=== FILE: README.md ===
# Bookstore service layer, modelled in Dafny

This project models the service layer of a Spring Boot bookstore. There are five services:

- `BookService`
- `AuthorService`
- `CustomerService`
- `PurchasedBookService`
- `AppUserService`

Each service is a set of pure functions over an in-memory `Store`. The store holds one table per repository. A table maps an id to a record and keeps the next id to hand out. Every operation returns either the new store with the view it returned, or the exception it threw, as an `Error`.

The model covers:

- request validation, which reports the first violation in a fixed order;
- the uniqueness guards on author email, customer email and username;
- existence-checked lookups, updates and deletes;
- linking books and authors in `createWithBooks`, `createBookWithNewAuthor` and `attachAuthor`;
- recording purchases.

Modules, one per file:

- `Common` (`common.dfy`): nullable fields (`Option`), the exceptions (`Error`), results and the exception messages.
- `Tables` (`tables.dfy`): a JPA repository as a table of numbered rows. `save` hands out the next id; `findAll` lists rows in ascending id order (an order the model fixes; see "Left out"); `findAllById` skips unknown ids; find-by-attribute returns the lowest matching id.
- `Entities` (`entities.dfy`): the stored records, the request and response DTOs, the store, and three store invariants:
  - `Linked`: every book↔author reference resolves;
  - `BooksWellFormed`: every stored book has a positive price and a non-negative stock;
  - `PurchasesResolve`: every purchase points at a stored customer and book.
- `EmailPattern` (`email_pattern.dfy`): the email regular expression `^[A-Za-z0-9+_.-]+@(.+)$`. It is given two ways, as the language the regex denotes and as a character-by-character matcher, and a lemma proves the two agree.
- `BookService`, `AuthorService`, `CustomerService`, `PurchaseService`, `AppUserService`: one module per service class.
- `Scenarios` (`scenarios.dfy`): properties that span several calls, for example create then get, delete then get, a duplicate email on a second create, and reuse of an author by email.

How the outside world enters the model:

- The password encoder is a parameter `encode: string -> string`.
- The current date of a purchase is a parameter `today`.
- A failing call carries no store. The store it leaves behind is the store it was given.

## Model

Source paths are relative to the repository root.

| member | source | states |
|---|---|---|
| Common.ValidationMessage | src/main/java/com/application/bookstore/exception/ValidationException.java:10-18 | The message starts with the field name and a blank. With no reason it continues `is required`; with a reason it continues `- ` and then the reason, verbatim. |
| Common.AlreadyExistsMessage | src/main/java/com/application/bookstore/exception/AttributeAlreadyExistsException.java:10-13 | The message starts with the entity name, names the attribute after ` already exists with `, and ends with `: ` and the duplicate value; its length is the three parts plus the fixed text. |
| Common.ValidationMessageDeterminesReason | src/main/java/com/application/bookstore/exception/ValidationException.java:10-18 | The two message forms "field is required" and "field - reason" never collide, and the reason can be read back from a message: equal messages for one field mean equal reasons. |
| Common.AlreadyExistsMessageDeterminesValue | src/main/java/com/application/bookstore/exception/AttributeAlreadyExistsException.java:10-13 | For a fixed entity and attribute, the duplicate value can be read back from the message. |
| Tables.Insert | src/main/java/com/application/bookstore/service/BookService.java:63 | `save` of a new record adds exactly that record under a fresh id, at or above every id handed out before, and changes no other row. |
| Tables.Put | src/main/java/com/application/bookstore/service/BookService.java:139 | `save` of an existing record replaces that row only; the ids stay the same. |
| Tables.Remove | src/main/java/com/application/bookstore/service/BookService.java:180 | `deleteById` removes exactly that id. |
| Tables.Get | src/main/java/com/application/bookstore/service/BookService.java:45 | `findById` finds a row iff the id is stored, and then returns that row. |
| Tables.Ids | src/main/java/com/application/bookstore/service/BookService.java:37 | `findAll` lists every stored id exactly once, in ascending order: the list holds an id iff it is stored, and its length is the number of rows. |
| Tables.IdsFrom | src/main/java/com/application/bookstore/service/BookService.java:37 | The ids from a lower bound upward: holds an id iff it is stored and at or above the bound, in strictly increasing order. |
| Tables.IdsFromCount | src/main/java/com/application/bookstore/service/BookService.java:37 | The ascending id list has one entry per stored row at or above the bound, so it has no repeats and misses none. |
| Tables.FindFirst | src/main/java/com/application/bookstore/service/AuthorService.java:184 | A find-by-attribute query returns a row satisfying the predicate, and no lower id satisfies it. It returns nothing iff no stored row satisfies it. |
| Tables.KeepIf | src/main/java/com/application/bookstore/service/AuthorService.java:89 | Filtering an increasing id list keeps exactly the wanted ids, in increasing order. |
| Tables.FindAllById | src/main/java/com/application/bookstore/service/AuthorService.java:89 | `findAllById` returns exactly the requested ids that are stored, once each, ascending. Unknown ids are dropped silently. |
| EmailPattern.MatchesPattern | src/main/java/com/application/bookstore/service/AuthorService.java:170 | The language of `^[A-Za-z0-9+_.-]+@(.+)$` under a whole-string match. Every string in it has at least three characters, starts with a local character, and has an `@` after the first character. |
| EmailPattern.IsEmailAddress | src/main/java/com/application/bookstore/service/CustomerService.java:130 | The matcher both validators call. Anything it accepts has at least three characters and starts with a local character, which is never `@`. `EmailMatcherAgreesWithPattern` proves it accepts exactly the pattern's language. |
| EmailPattern.LocalThenDomainSplits | src/main/java/com/application/bookstore/service/AuthorService.java:170 | The matcher's tail accepts a string iff the string splits at an `@` into local characters and a non-empty domain with no line terminator. |
| EmailPattern.EmailMatcherAgreesWithPattern | src/main/java/com/application/bookstore/service/AuthorService.java:170 | The character-by-character matcher accepts exactly the strings of `^[A-Za-z0-9+_.-]+@(.+)$`: a non-empty local part from the class, an `@`, then one or more characters none of which is a line terminator. |
| EmailPattern.EmailPatternExamples | src/main/java/com/application/bookstore/service/CustomerService.java:130 | Examples of the pattern. An ordinary address matches. An empty local part, an empty domain, and a blank in the local part do not. |
| BookService.ValidateBookRequest | src/main/java/com/application/bookstore/service/BookService.java:188-205 | The request passes iff title and genre are present, price > 0 and stock >= 0. Otherwise the first failure in source order is reported: title, genre, price when it is 0, then field "stock" with "price should be greater than 0" when the price is negative, then "stock should be greater than 0". |
| BookService.ToEntity | src/main/java/com/application/bookstore/service/BookService.java:249-261 | A book built from a valid request carries its title, genre, price and stock, has no authors, and so has a positive price and a non-negative stock. |
| BookService.AuthorDetailsOfAuthor | src/main/java/com/application/bookstore/service/BookService.java:228-235 | The entry for one author in a book's view carries that author's first name, last name, email and nationality. |
| BookService.AuthorDetailsOf | src/main/java/com/application/bookstore/service/BookService.java:228-237 | The author list of a book's view is never longer than the book's author ids. When every id is stored, it keeps the length and order, one entry per author. |
| BookService.AuthorDetailsOfAppend | src/main/java/com/application/bookstore/service/BookService.java:163-167 | Appending a stored author to a book appends that author's details to the view's author list. |
| BookService.ToView | src/main/java/com/application/bookstore/service/BookService.java:215-243 | The view copies the id, title, genre, price and stock. Its author list is no longer than the book's. When every author id of the book is stored, it has one entry per author in the book's order, each that author's details. |
| BookService.GetAll | src/main/java/com/application/bookstore/service/BookService.java:35-38 | One view per stored book, every stored book included, ascending by id, each equal to that book's view. |
| BookService.GetById | src/main/java/com/application/bookstore/service/BookService.java:43-51 | Fails with NotFound("Book", id) iff the id is absent; otherwise returns the stored book's view. |
| BookService.Create | src/main/java/com/application/bookstore/service/BookService.java:56-69 | Succeeds iff the request is valid, and otherwise returns the validator's error. On success exactly one book is added, with the request's fields and no authors, and no other table changes. Preserves `BooksWellFormed` and `Linked`. |
| BookService.SaveWithAuthor | src/main/java/com/application/bookstore/service/BookService.java:93-97 | Saving the new book with one stored author adds exactly that book, with that author as its only author, and leaves the other tables unchanged. |
| BookService.CreateBookWithNewAuthor | src/main/java/com/application/bookstore/service/BookService.java:74-111 | The book is validated before the author, and only `Validation` errors are possible (never AlreadyExists). On success exactly one book is added, and its only author carries the request email. If an author with that email exists, the author table is unchanged and the lowest such id is linked. Otherwise exactly one author built from the request is added. Preserves `BooksWellFormed`, `Linked` and email uniqueness. |
| BookService.Update | src/main/java/com/application/bookstore/service/BookService.java:115-142 | An absent id gives NotFound before any validation, and an invalid request gives the validator's error. On success title, genre, price and stock are all replaced by the request's, and the author list is kept. Only that book changes. |
| BookService.AttachAuthor | src/main/java/com/application/bookstore/service/BookService.java:149-169 | A missing book is reported before a missing author. On success the author is appended to that book's author list and nothing else changes. The view returned is the view of the updated book, whose author list is the old one with that author's details at the end. |
| BookService.Delete | src/main/java/com/application/bookstore/service/BookService.java:174-182 | Fails with NotFound("Book", id) iff the id is absent. Otherwise removes exactly that book. |
| AuthorService.ValidateAuthorRequest | src/main/java/com/application/bookstore/service/AuthorService.java:157-178 | The request passes iff all four fields are present and the email matches the pattern. Otherwise the first failure in the order firstName, lastName, email, email format ("Invalid email format"), nationality is reported. |
| AuthorService.FindByEmail | src/main/java/com/application/bookstore/service/AuthorService.java:184 | Finds an author iff one has the email. The one found has it, and no lower id does. |
| AuthorService.ValidateEmailUniqueness | src/main/java/com/application/bookstore/service/AuthorService.java:183-188 | Passes iff no stored author has the email; otherwise fails with AlreadyExists("Author", "email", email). |
| AuthorService.ToEntity | src/main/java/com/application/bookstore/service/AuthorService.java:226-238 | An author built from a valid request carries its first name, last name, email and nationality, and starts with no books. |
| AuthorService.BookDetailsOfBook | src/main/java/com/application/bookstore/service/AuthorService.java:209-216 | The entry for one book in an author's view carries that book's title, price, genre and stock. |
| AuthorService.BookDetailsOf | src/main/java/com/application/bookstore/service/AuthorService.java:209-216 | The book list of an author's view is never longer than the author's book ids. When every id is stored, it keeps the length and order, one entry per book. |
| AuthorService.ToView | src/main/java/com/application/bookstore/service/AuthorService.java:197-220 | The view copies the id and the four fields. Its book list is no longer than the author's. When every book id of the author is stored, it has one entry per book in the author's order, each that book's details. |
| AuthorService.GetAll | src/main/java/com/application/bookstore/service/AuthorService.java:36-41 | One view per stored author, every stored author included, ascending by id. |
| AuthorService.GetById | src/main/java/com/application/bookstore/service/AuthorService.java:46-53 | Fails with NotFound("Author", id) iff the id is absent; otherwise returns the stored author's view. |
| AuthorService.Create | src/main/java/com/application/bookstore/service/AuthorService.java:59-72 | Validation comes before the uniqueness guard. Succeeds iff the request is valid and its email is free. On success exactly one author is added, with the request's four fields and no books, and no other table changes. Preserves email uniqueness and `Linked`. |
| AuthorService.AddAuthorToBooks | src/main/java/com/application/bookstore/service/AuthorService.java:91-93 | Each listed book gets the author appended to its author list. Every other book, and every other field, is unchanged. |
| AuthorService.CreateWithBooks | src/main/java/com/application/bookstore/service/AuthorService.java:77-102 | The errors are as in `create`. On success one author is added with the request's fields, and its books are exactly the requested ids that are stored; unknown ids are dropped. Each of those books gains the new author at the end of its list, and no other book changes. Preserves `Linked`, `BooksWellFormed` and email uniqueness. |
| AuthorService.SaveWithBooks | src/main/java/com/application/bookstore/service/AuthorService.java:86-97 | The saving half of `createWithBooks`: the new author gets the found books, each found book gets the new author, and no other author is touched. |
| AuthorService.SaveWithBooksKeepsLinked | src/main/java/com/application/bookstore/service/AuthorService.java:89-97 | After `createWithBooks` every book↔author reference still resolves. |
| AuthorService.SaveWithBooksKeepsWellFormed | src/main/java/com/application/bookstore/service/AuthorService.java:91-93 | Linking books to the new author changes no price or stock. |
| AuthorService.SaveWithBooksKeepsEmailsUnique | src/main/java/com/application/bookstore/service/AuthorService.java:84-97 | A free email stays unique after the author is saved. |
| AuthorService.NewEmailKeepsUnique | src/main/java/com/application/bookstore/service/AuthorService.java:64-67 | Adding one author whose email is free keeps author emails unique. |
| AuthorService.MergeAuthor | src/main/java/com/application/bookstore/service/AuthorService.java:116-127 | Each field present in the request replaces the stored one; each absent field is kept; the book list is kept. |
| AuthorService.Update | src/main/java/com/application/bookstore/service/AuthorService.java:107-134 | An absent id gives NotFound("Author", id). Otherwise each present field of the request overwrites the stored one and each absent field is kept, the book list is kept, and only that author changes. Nothing is validated. Preserves `Linked`. |
| AuthorService.Delete | src/main/java/com/application/bookstore/service/AuthorService.java:140-151 | Fails with NotFound("Author", id) iff the id is absent. Otherwise removes exactly that author. |
| CustomerService.FindByEmail | src/main/java/com/application/bookstore/service/CustomerService.java:135 | Finds a customer iff one has the email, and the one found has it. |
| CustomerService.ValidateCustomerRequest | src/main/java/com/application/bookstore/service/CustomerService.java:117-148 | The request passes iff all five fields are present, the email matches the pattern, and no stored customer has the email. Otherwise the first failure in the order firstName, lastName, email, email format, AlreadyExists("Customer", "email", email), phoneNumber, address is reported. The email check sits between the email format and phoneNumber checks. |
| CustomerService.ToEntity | src/main/java/com/application/bookstore/service/CustomerService.java:179-191 | The customer carries the request's five fields. |
| CustomerService.ToView | src/main/java/com/application/bookstore/service/CustomerService.java:159-174 | The view copies the five fields and the id. Its full name is the first name, one blank, then the last name. |
| CustomerService.ViewDeterminesCustomer | src/main/java/com/application/bookstore/service/CustomerService.java:159-174 | No field is lost in the view: equal views come from equal customers. |
| CustomerService.GetAll | src/main/java/com/application/bookstore/service/CustomerService.java:30-33 | One view per stored customer, every stored customer included, ascending by id. |
| CustomerService.GetById | src/main/java/com/application/bookstore/service/CustomerService.java:38-44 | Fails with NotFound("Customer", id) iff the id is absent; otherwise returns the stored customer's view. |
| CustomerService.Create | src/main/java/com/application/bookstore/service/CustomerService.java:49-61 | Succeeds iff the request is valid, and otherwise returns the validator's error. On success exactly one customer with the request's fields is added. Preserves email uniqueness and `PurchasesResolve`. |
| CustomerService.Merge | src/main/java/com/application/bookstore/service/CustomerService.java:75-89 | Each field present in the request replaces the stored one; each absent field is kept. |
| CustomerService.MergeIdempotent | src/main/java/com/application/bookstore/service/CustomerService.java:75-89 | Merging a request twice is merging it once, and an all-null request changes nothing. |
| CustomerService.Update | src/main/java/com/application/bookstore/service/CustomerService.java:66-96 | An absent id gives NotFound("Customer", id). Otherwise only that customer changes, to the merge of the request; there is no validation and no email check. |
| CustomerService.Delete | src/main/java/com/application/bookstore/service/CustomerService.java:101-111 | Fails with NotFound("Customer", id) iff the id is absent. Otherwise removes exactly that customer. |
| PurchaseService.ToEntity | src/main/java/com/application/bookstore/service/PurchasedBookService.java:125-136 | The purchase links the resolved customer and book and is dated with the current date. |
| PurchaseService.ToView | src/main/java/com/application/bookstore/service/PurchasedBookService.java:108-120 | The view exposes the purchase id and date and the customer and book ids. |
| PurchaseService.GetAll | src/main/java/com/application/bookstore/service/PurchasedBookService.java:40-43 | One view per stored purchase, every stored purchase included, ascending by id. |
| PurchaseService.GetById | src/main/java/com/application/bookstore/service/PurchasedBookService.java:48-54 | Fails with NotFound("Purchase", id) iff the id is absent; otherwise returns the stored purchase's view. |
| PurchaseService.Create | src/main/java/com/application/bookstore/service/PurchasedBookService.java:59-84 | A missing customer is reported first, even when the book is also missing, and then a missing book. On success exactly one purchase (customer, book, today) is added. Customers, books and their stock are unchanged. Preserves `PurchasesResolve`. |
| PurchaseService.CreateIgnoresClientIdAndDate | src/main/java/com/application/bookstore/service/PurchasedBookService.java:125-134 | The client's purchase id and date have no effect on the result. |
| PurchaseService.Delete | src/main/java/com/application/bookstore/service/PurchasedBookService.java:89-99 | Fails with NotFound("Purchase", id) iff the id is absent. Otherwise removes exactly that purchase and keeps `PurchasesResolve`. |
| AppUserService.UpperChar | src/main/java/com/application/bookstore/service/AppUserService.java:184 | The lower-case ASCII letter k places after `a` maps to the upper-case letter k places after `A`; every other character is kept. |
| AppUserService.ToUpperCase | src/main/java/com/application/bookstore/service/AppUserService.java:184 | Upper-casing keeps the length and maps each character on its own. |
| AppUserService.ToUpperCaseHasNoLowerCase | src/main/java/com/application/bookstore/service/AppUserService.java:184 | The stored roles contain no lower-case ASCII letter. |
| AppUserService.ToUpperCaseIdempotent | src/main/java/com/application/bookstore/service/AppUserService.java:184 | Upper-casing twice is the same as upper-casing once. |
| AppUserService.FindByUsername | src/main/java/com/application/bookstore/repository/AppUserRepository.java:10 | Finds a user iff one has the username. The one found has it, and no lower id does. |
| AppUserService.ValidateAppUserRequest | src/main/java/com/application/bookstore/service/AppUserService.java:136-153 | The request passes iff username, password and roles are present and the username is free. Otherwise the first failure in the order username, password, roles, AlreadyExists("AppUser", "username", u) is reported. |
| AppUserService.ToEntity | src/main/java/com/application/bookstore/service/AppUserService.java:177-187 | The user gets the request's username, the encoded password and the upper-cased roles. |
| AppUserService.ToView | src/main/java/com/application/bookstore/service/AppUserService.java:162-172 | The view holds the id, username and roles only. |
| AppUserService.ViewHidesPassword | src/main/java/com/application/bookstore/service/AppUserService.java:162-172 | Changing a user's password does not change the user's view. |
| AppUserService.GetAll | src/main/java/com/application/bookstore/service/AppUserService.java:37-40 | One view per stored user, every stored user included, ascending by id. |
| AppUserService.GetById | src/main/java/com/application/bookstore/service/AppUserService.java:45-53 | Fails with NotFound("User", id) iff the id is absent; otherwise returns the stored user's view. |
| AppUserService.Create | src/main/java/com/application/bookstore/service/AppUserService.java:58-70 | Succeeds iff the request is valid, and otherwise returns the validator's error. On success exactly one user is added with the encoded password and upper-cased roles, and the view shows the upper-cased roles. Preserves username uniqueness. |
| AppUserService.Merge | src/main/java/com/application/bookstore/service/AppUserService.java:83-91 | A present username or roles value is written as given; the roles are not upper-cased. A present password is stored encoded. Absent fields are kept. |
| AppUserService.MergeIdempotent | src/main/java/com/application/bookstore/service/AppUserService.java:83-91 | Merging a request twice is merging it once, and an all-null request keeps the stored user, password included. |
| AppUserService.Update | src/main/java/com/application/bookstore/service/AppUserService.java:75-96 | An absent id gives NotFound("AppUser", id). Otherwise only that user changes, to the merge of the request, with no validation and no username check. |
| AppUserService.Delete | src/main/java/com/application/bookstore/service/AppUserService.java:101-109 | Fails with NotFound("AppUser", id) iff the id is absent. Otherwise removes exactly that user. |
| AppUserService.LoadUserByUsername | src/main/java/com/application/bookstore/service/AppUserService.java:116-129 | Fails with UsernameNotFound iff no user has the name. Otherwise returns a stored user's name, encoded password and roles. |
| AppUserService.CreateThenLoad | src/main/java/com/application/bookstore/service/AppUserService.java:58-70 | After a successful create, loading by that username returns the new user's encoded password and upper-cased roles. |
| Scenarios.AuthorCreateThenGet | src/main/java/com/application/bookstore/service/AuthorService.java:46-72 | A created author is found by id, with the view that create returned. |
| Scenarios.BookCreateThenGet | src/main/java/com/application/bookstore/service/BookService.java:43-69 | A created book is found by id, with the view that create returned. |
| Scenarios.CustomerCreateThenGet | src/main/java/com/application/bookstore/service/CustomerService.java:38-61 | A created customer is found by id, with the view that create returned. |
| Scenarios.PurchaseCreateThenGet | src/main/java/com/application/bookstore/service/PurchasedBookService.java:48-84 | A recorded purchase is found by id, with the view that create returned. |
| Scenarios.AppUserCreateThenGet | src/main/java/com/application/bookstore/service/AppUserService.java:45-70 | A created user is found by id, with the view that create returned. |
| Scenarios.DeleteThenGetIsNotFound | src/main/java/com/application/bookstore/service/BookService.java:174-182 | For every kind of record, after a delete the id is not found, and deleting it again fails with NotFound. |
| Scenarios.AuthorEmailTakenAfterCreate | src/main/java/com/application/bookstore/service/AuthorService.java:59-67 | After an author is created, a valid request with the same email fails with AlreadyExists naming that email. |
| Scenarios.CustomerEmailTakenAfterCreate | src/main/java/com/application/bookstore/service/CustomerService.java:134-137 | After a customer is created, another complete request with the same email fails with AlreadyExists naming that email. |
| Scenarios.UsernameTakenAfterCreate | src/main/java/com/application/bookstore/service/AppUserService.java:149-152 | After a user is created, another complete request with the same username fails with AlreadyExists naming that username. |
| Scenarios.LinkedAuthorIsTheOneWithEmail | src/main/java/com/application/bookstore/service/BookService.java:87-97 | When exactly one author has the email, createBookWithNewAuthor adds no author and links the new book to that author alone. |
| Scenarios.AuthorThenBookWithSameEmail | src/main/java/com/application/bookstore/service/BookService.java:74-111 | Creating an author, then a book whose author request has the same email, succeeds. It adds no author, and the book's only author is the one created first. |
| Scenarios.BookWithNewAuthorTwice | src/main/java/com/application/bookstore/service/BookService.java:74-111 | Two createBookWithNewAuthor calls with the same author email create that author at most once. The second call links the same author as the first. This holds for every store, including one where several authors already share the email. |
| Scenarios.AuthorUpdateCanDuplicateEmail | src/main/java/com/application/bookstore/service/AuthorService.java:122-124 | Update does not re-check the email: some store with unique emails has an update after which two authors share an email. |
| Scenarios.MergeAuthorIdempotent | src/main/java/com/application/bookstore/service/AuthorService.java:116-127 | The author merge is idempotent, and an all-null request leaves the author as stored. |
| Scenarios.BookUpdateIsNotPartial | src/main/java/com/application/bookstore/service/BookService.java:124 | Book updates are validated in full: a request that sets only the stock fails for the missing title. |

## Left out

- Controllers, `GlobalExceptionHandler`, HTTP status codes and the security configuration. These are routing and framework plumbing around the services.
- Logging. It has no effect on results.
- JPA semantics are replaced by maps:
  - id generation, beyond "a fresh id at or above every earlier one";
  - cascades (for example, `Customer` cascades deletes to its purchases);
  - the owning side of the book↔author join table;
  - transactional atomicity of the two saves in `createBookWithNewAuthor`.

  The lists of ids are kept exactly as the services change them in memory. As a result, deleting a book, author or customer can leave ids that no longer resolve. The views skip such ids, and no delete claims to preserve `Linked` or `PurchasesResolve`.
- Spring Security's role split and `User` builder in `loadUserByUsername`, password hashing (`encode` is a parameter) and `LocalDateTime.now()` (`today` is a parameter). These are foreign library calls.
- `AuthorService.FindByEmail` returns the lowest matching id. With duplicate emails, which `update` can create, Spring Data would throw instead of choosing one.
- `CustomerService.FindByEmail` returns the lowest matching id. With duplicate emails, which `update` can create, Spring Data would throw instead of choosing one.
- `AppUserService.FindByUsername` returns the lowest matching id. With duplicate usernames Spring Data would throw. Duplicates cannot arise in the program, because the column is unique, but they can in the model (see `AppUserService.Update` below).
- `AppUserService.UpperChar`: only `a`–`z` are mapped. Every other character is kept, including non-ASCII lower-case letters that Java's `toUpperCase` would map.
- `AppUserService.ToUpperCase`: only the ASCII letters are upper-cased. Java's locale-dependent full Unicode mapping, which can change the length of the string, is not modelled.
- `price` is a real number. NaN and floating-point rounding are not represented; the services only compare the price with 0 and copy it.
- Java `int` ids and stock are unbounded integers. Overflow of the id counter is not modelled.
- A null `bookIds` list in `createWithBooks`, and null requests, are not modelled. They are `NullPointerException`s, not domain errors.
- `BookService.AttachAuthor`: the model does not state that attaching twice is harmless. The author is appended to the book's author list. The type of that collection is not part of this model (`Book.java` and `Author.java` are not part of it), so a duplicate may or may not be dropped on save.
- `AppUserService.Update`: the column constraints of `AppUser` (`src/main/java/com/application/bookstore/model/AppUser.java:13-20`) are persistence behaviour and are not modelled. These are `unique` on the username, the `length` limits of 20, 20 and 40, and `nullable = false`. In the program, an update to a username that is taken fails when it is saved. The model returns `Ok`, and two users then share the name. Lengths are not checked either: an over-long username or roles value is stored.
- `AppUserService.Create`: the `length` limits of `AppUser` (`src/main/java/com/application/bookstore/model/AppUser.java:13-20`) are not modelled. The model stores any username, encoded password and roles. In the program, a username over 20 or roles over 40 characters fail on save. The password column holds 20 characters, while the BCrypt encoder (`src/main/java/com/application/bookstore/config/SecurityConfig.java:47`) produces 60-character hashes, so the stored hash does not fit the column as declared.
- `CustomerService.Create`: the column lengths of `Customer` (`src/main/java/com/application/bookstore/model/Customer.java:15-28`) are not modelled. These are 20 for the first name, 20 for the last name, 30 for the email, 20 for the phone number and 50 for the address. In the program, a longer value fails on save; the model stores it.
- `CustomerService.Update`: the same column lengths are not checked on update.
- `Tables.Ids`, `Tables.FindAllById` and every `GetAll`: `findAll` and `findAllById` have no sort and no `ORDER BY`, and Spring Data promises no order. Ascending id order is a modelling choice. The promises that do not depend on it are that every stored row appears once and that no other row appears. `AuthorService.CreateWithBooks` inherits the choice: the new author's book ids come out ascending.
- `PurchaseService.Create` takes no stock. No part of the source decrements it.
- `UserService`, `EmailAlreadyExistsException`, `PurchasedBookRequestDto` and the commented-out `UserController` are not used by the modelled services.
- Points where the code behaves in a way a reader might not expect, modelled as written:
  - `attachAuthor` appends, so attaching twice can list the author twice.
  - A book update validates the full request first, so a request that sets only some fields fails (`Scenarios.BookUpdateIsNotPartial`).
  - `BookWithNewAuthorDto` declares its author as `AuthorDto`, yet the service reads it as an `AuthorRequestDto`; it is modelled as `AuthorRequest`.
  - `AuthorRepository.java` as written declares no `findByEmail`; the model gives it the lookup the service calls.
- The not-found entity name is modelled as the code writes it: `getById` of a user names "User", while its `update` and `delete` name "AppUser". The exception messages are modelled for `ValidationException` and `AttributeAlreadyExistsException`. The `EntityNotFoundException` texts are not modelled, since `NotFound` carries the entity and the id.

=== FILE: app_user_service.dfy ===
/** `AppUserService`: validation of user requests, including the username
    uniqueness check, the user create, update, delete and lookups, and the
    lookup that `loadUserByUsername` performs. The password encoder is a
    parameter. */
module AppUserService {
  import opened Common
  import opened Tables
  import opened Entities

  /** `String.toUpperCase` on one character, restricted to the ASCII
      letters; other characters are kept. */
  function UpperChar(c: char): (u: char)
    ensures 'a' <= c <= 'z' ==> 'A' <= u <= 'Z' && u as int - 'A' as int == c as int - 'a' as int
    ensures !('a' <= c <= 'z') ==> u == c
  {
    if 'a' <= c <= 'z' then (c as int - 'a' as int + 'A' as int) as char else c
  }

  /** `String.toUpperCase`, restricted to ASCII letters, character by
      character. */
  function ToUpperCase(s: string): (u: string)
    ensures |u| == |s|
    ensures forall i :: 0 <= i < |s| ==> u[i] == UpperChar(s[i])
    decreases |s|
  {
    if s == [] then [] else [UpperChar(s[0])] + ToUpperCase(s[1..])
  }

  /** The result has no lower-case ASCII letter. */
  lemma ToUpperCaseHasNoLowerCase(s: string)
    ensures forall i :: 0 <= i < |s| ==> !('a' <= ToUpperCase(s)[i] <= 'z')
  {
  }

  /** Upper-casing twice is upper-casing once. */
  lemma ToUpperCaseIdempotent(s: string)
    ensures ToUpperCase(ToUpperCase(s)) == ToUpperCase(s)
  {
    ToUpperCaseHasNoLowerCase(s);
  }

  ghost predicate HasUsername(users: Table<AppUser>, username: string)
  {
    exists id :: id in users.rows && users.rows[id].username == username
  }

  /** No two stored users share a username. */
  ghost predicate UsernamesUnique(users: Table<AppUser>)
  {
    forall i, j :: i in users.rows && j in users.rows && users.rows[i].username == users.rows[j].username ==> i == j
  }

  /** `findByUsername`: the user with that name (the lowest id if several). */
  function FindByUsername(users: Table<AppUser>, username: string): (r: Option<int>)
    ensures r.Some? <==> HasUsername(users, username)
    ensures r.Some? ==> r.value in users.rows && users.rows[r.value].username == username
    ensures r.Some? ==> forall id :: id in users.rows && users.rows[id].username == username ==> r.value <= id
  {
    FindFirst(users, (u: AppUser) => u.username == username)
  }

  /** `validateAppUserRequestDto`: passes exactly when username, password and
      roles are present and no stored user has the username; otherwise
      reports the first violation in that order. */
  function ValidateAppUserRequest(users: Table<AppUser>, req: AppUserRequest): (c: Check)
    ensures c.Pass? <==>
      req.username.Some? && req.password.Some? && req.roles.Some? && !HasUsername(users, req.username.value)
    ensures req.username.None? ==> c == Fail(Validation("username", None))
    ensures req.username.Some? && req.password.None? ==> c == Fail(Validation("password", None))
    ensures req.username.Some? && req.password.Some? && req.roles.None? ==> c == Fail(Validation("roles", None))
    ensures (req.username.Some? && req.password.Some? && req.roles.Some? && HasUsername(users, req.username.value)) ==>
      c == Fail(AlreadyExists("AppUser", "username", req.username.value))
  {
    if req.username.None? then Fail(Validation("username", None))
    else if req.password.None? then Fail(Validation("password", None))
    else if req.roles.None? then Fail(Validation("roles", None))
    else if FindByUsername(users, req.username.value).Some? then
      Fail(AlreadyExists("AppUser", "username", req.username.value))
    else Pass
  }

  /** `toEntity` followed by the encoding of `create`: the request's username,
      its encoded password and its roles in upper case. */
  function ToEntity(req: AppUserRequest, encode: string -> string): (u: AppUser)
    requires req.username.Some? && req.password.Some? && req.roles.Some?
    ensures u.username == req.username.value
    ensures u.password == encode(req.password.value)
    ensures u.roles == ToUpperCase(req.roles.value)
  {
    AppUser(req.username.value, encode(req.password.value), ToUpperCase(req.roles.value))
  }

  /** `toDto`: the id, username and roles; the password is not exposed. */
  function ToView(id: int, u: AppUser): (v: AppUserView)
    ensures v.id == id && v.username == u.username && v.roles == u.roles
  {
    AppUserView(id, u.username, u.roles)
  }

  /** Two users that differ only in their password have the same view. */
  lemma ViewHidesPassword(id: int, u: AppUser, password: string)
    ensures ToView(id, u.(password := password)) == ToView(id, u)
  {
  }

  /** `getAll`: every stored user once, ascending by id. */
  function GetAll(s: Store): (r: seq<AppUserView>)
    ensures |r| == |s.users.rows|
    ensures forall i :: 0 <= i < |r| ==>
      r[i].id in s.users.rows && r[i] == ToView(r[i].id, s.users.rows[r[i].id])
    ensures forall i, j :: 0 <= i < j < |r| ==> r[i].id < r[j].id
    ensures forall id :: id in s.users.rows ==> exists i :: 0 <= i < |r| && r[i].id == id
  {
    var ids := Ids(s.users);
    var r := ViewsOf(s, ids);
    assert forall k :: 0 <= k < |ids| ==> r[k].id == ids[k];
    r
  }

  /** The views of the listed rows, in the order listed. */
  function ViewsOf(s: Store, ids: seq<int>): (r: seq<AppUserView>)
    requires forall i :: 0 <= i < |ids| ==> ids[i] in s.users.rows
    ensures |r| == |ids|
    ensures forall i :: 0 <= i < |ids| ==> r[i] == ToView(ids[i], s.users.rows[ids[i]])
  {
    seq(|ids|, i requires 0 <= i < |ids| => ToView(ids[i], s.users.rows[ids[i]]))
  }

  /** `getById`: its not-found error names the entity "User". */
  function GetById(s: Store, id: int): (r: Result<AppUserView>)
    ensures r.Err? <==> id !in s.users.rows
    ensures r.Err? ==> r.error == NotFound("User", id)
    ensures r.Ok? ==> r.value == ToView(id, s.users.rows[id])
  {
    match Get(s.users, id)
    case None => Err(NotFound("User", id))
    case Some(u) => Ok(ToView(id, u))
  }

  /** `create`: one new user, or the first validation failure. The password
      is stored encoded and the roles in upper case. No two users share a
      username afterwards if none did before. */
  function Create(s: Store, req: AppUserRequest, encode: string -> string): (r: Result<Reply<AppUserView>>)
    ensures r.Ok? <==> ValidateAppUserRequest(s.users, req).Pass?
    ensures r.Err? ==> r.error == ValidateAppUserRequest(s.users, req).error
    ensures r.Ok? ==>
      var s', id := r.value.store, r.value.view.id;
      var u := AppUser(req.username.value, encode(req.password.value), ToUpperCase(req.roles.value));
      && s'.(users := s.users) == s
      && AddsOne(s.users, s'.users, id, u)
      && r.value.view == AppUserView(id, req.username.value, ToUpperCase(req.roles.value))
    ensures r.Ok? && UsernamesUnique(s.users) ==> UsernamesUnique(r.value.store.users)
  {
    var check := ValidateAppUserRequest(s.users, req);
    if check.Fail? then Err(check.error)
    else
      var user := ToEntity(req, encode);
      var saved := Insert(s.users, user);
      Ok(Reply(s.(users := saved.table), ToView(saved.id, user)))
  }

  /** The merge of `update`: username and roles are written as given (roles
      are not upper-cased here), and a given password is stored encoded. */
  function Merge(u: AppUser, req: AppUserRequest, encode: string -> string): (m: AppUser)
    ensures m.username == req.username.GetOr(u.username)
    ensures req.password.Some? ==> m.password == encode(req.password.value)
    ensures req.password.None? ==> m.password == u.password
    ensures m.roles == req.roles.GetOr(u.roles)
  {
    AppUser(
      req.username.GetOr(u.username),
      if req.password.Some? then encode(req.password.value) else u.password,
      req.roles.GetOr(u.roles))
  }

  /** Merging the same request twice is merging it once, and a request with
      no fields keeps the stored user, password included. */
  lemma MergeIdempotent(u: AppUser, req: AppUserRequest, encode: string -> string)
    ensures Merge(Merge(u, req, encode), req, encode) == Merge(u, req, encode)
    ensures req == AppUserRequest(None, None, None) ==> Merge(u, req, encode) == u
  {
  }

  /** `update`: an absent id is an error (naming "AppUser"); otherwise each
      field the request gives is written, without validation or username
      check. */
  function Update(s: Store, id: int, req: AppUserRequest, encode: string -> string): (r: Result<Reply<AppUserView>>)
    ensures r.Err? <==> id !in s.users.rows
    ensures r.Err? ==> r.error == NotFound("AppUser", id)
    ensures r.Ok? ==>
      var s', after := r.value.store, Merge(s.users.rows[id], req, encode);
      && s'.(users := s.users) == s
      && s'.users.rows == s.users.rows[id := after]
      && r.value.view == ToView(id, after)
  {
    match Get(s.users, id)
    case None => Err(NotFound("AppUser", id))
    case Some(existing) =>
      var after := Merge(existing, req, encode);
      Ok(Reply(s.(users := Put(s.users, id, after)), ToView(id, after)))
  }

  /** `delete`: an absent id is an error (naming "AppUser"); otherwise
      exactly that user is removed. */
  function Delete(s: Store, id: int): (r: Result<Store>)
    ensures r.Err? <==> id !in s.users.rows
    ensures r.Err? ==> r.error == NotFound("AppUser", id)
    ensures r.Ok? ==> r.value.(users := s.users) == s && r.value.users.rows == s.users.rows - {id}
    ensures r.Ok? && UsernamesUnique(s.users) ==> UsernamesUnique(r.value.users)
  {
    if id !in s.users.rows then Err(NotFound("AppUser", id))
    else Ok(s.(users := Remove(s.users, id)))
  }

  /** The lookup of `loadUserByUsername`: the stored username, encoded
      password and roles of the user with that name, or `UsernameNotFound`.
      The split of the roles at commas belongs to Spring Security and is not
      part of this model. */
  function LoadUserByUsername(s: Store, username: string): (r: Result<UserDetails>)
    ensures r.Err? <==> !HasUsername(s.users, username)
    ensures r.Err? ==> r.error == UsernameNotFound(username)
    ensures r.Ok? ==> r.value.username == username
    ensures r.Ok? ==> exists id :: id in s.users.rows && s.users.rows[id] == AppUser(username, r.value.password, r.value.roles)
  {
    match FindByUsername(s.users, username)
    case None => Err(UsernameNotFound(username))
    case Some(id) =>
      var u := s.users.rows[id];
      Ok(UserDetails(u.username, u.password, u.roles))
  }

  /** After a successful `create`, loading by the new username finds that
      user with the encoded password and upper-cased roles. */
  lemma {:induction false} CreateThenLoad(s: Store, req: AppUserRequest, encode: string -> string)
    requires Create(s, req, encode).Ok?
    ensures
      var u := req.username.value;
      LoadUserByUsername(Create(s, req, encode).value.store, u)
        == Ok(UserDetails(u, encode(req.password.value), ToUpperCase(req.roles.value)))
  {
    var r := Create(s, req, encode);
    var s' := r.value.store;
    var id := r.value.view.id;
    var u := req.username.value;
    assert s'.users.rows[id].username == u;
    var found := FindByUsername(s'.users, u);
    assert found.Some?;
    // the new username was not stored before, so the only user with it is the new one
    assert found.value == id;
  }
}

=== FILE: author_service.dfy ===
/** `AuthorService`: validation of author requests, the email uniqueness guard,
    and the author create, create-with-books, update, delete and lookups. */
module AuthorService {
  import opened Common
  import opened Tables
  import opened Entities
  import opened EmailPattern

  /** `validateAuthorRequestDto`: passes exactly when every field is present
      and the email matches the address pattern; otherwise reports the first
      violation in the order firstName, lastName, email, email format,
      nationality. */
  function ValidateAuthorRequest(req: AuthorRequest): (c: Check)
    ensures c.Pass? <==>
      && req.firstName.Some? && req.lastName.Some? && req.email.Some?
      && MatchesPattern(req.email.value) && req.nationality.Some?
    ensures req.firstName.None? ==> c == Fail(Validation("firstName", None))
    ensures req.firstName.Some? && req.lastName.None? ==> c == Fail(Validation("lastName", None))
    ensures req.firstName.Some? && req.lastName.Some? && req.email.None? ==>
      c == Fail(Validation("email", None))
    ensures req.firstName.Some? && req.lastName.Some? && req.email.Some? && !MatchesPattern(req.email.value) ==>
      c == Fail(Validation("email", Some("Invalid email format")))
    ensures (req.firstName.Some? && req.lastName.Some? && req.email.Some? && MatchesPattern(req.email.value)
             && req.nationality.None?) ==> c == Fail(Validation("nationality", None))
  {
    if req.firstName.None? then Fail(Validation("firstName", None))
    else if req.lastName.None? then Fail(Validation("lastName", None))
    else if req.email.None? then Fail(Validation("email", None))
    else
      EmailMatcherAgreesWithPattern(req.email.value);
      if !IsEmailAddress(req.email.value) then Fail(Validation("email", Some("Invalid email format")))
      else if req.nationality.None? then Fail(Validation("nationality", None))
      else Pass
  }

  ghost predicate HasEmail(authors: Table<Author>, email: string)
  {
    exists id :: id in authors.rows && authors.rows[id].email == email
  }

  /** No two stored authors share an email. */
  ghost predicate EmailsUnique(authors: Table<Author>)
  {
    forall i, j :: i in authors.rows && j in authors.rows && authors.rows[i].email == authors.rows[j].email ==> i == j
  }

  /** `findByEmail`: the author with that email (the lowest id if several). */
  function FindByEmail(authors: Table<Author>, email: string): (r: Option<int>)
    ensures r.Some? <==> HasEmail(authors, email)
    ensures r.Some? ==> r.value in authors.rows && authors.rows[r.value].email == email
    ensures r.Some? ==> forall id :: id in authors.rows && authors.rows[id].email == email ==> r.value <= id
  {
    FindFirst(authors, (a: Author) => a.email == email)
  }

  /** `validateEmailUniqueness`. */
  function ValidateEmailUniqueness(authors: Table<Author>, email: string): (c: Check)
    ensures c.Pass? <==> !HasEmail(authors, email)
    ensures c.Fail? ==> c.error == AlreadyExists("Author", "email", email)
  {
    if FindByEmail(authors, email).Some? then Fail(AlreadyExists("Author", "email", email)) else Pass
  }

  /** `toEntity`: a new author carrying the request's four fields and no
      books. */
  function ToEntity(req: AuthorRequest): (a: Author)
    requires ValidateAuthorRequest(req).Pass?
    ensures a.firstName == req.firstName.value && a.lastName == req.lastName.value
    ensures a.email == req.email.value && a.nationality == req.nationality.value
    ensures a.books == []
  {
    Author(req.firstName.value, req.lastName.value, req.email.value, req.nationality.value, [])
  }

  /** The `BookRequestDto` of one book: its four fields, without authors. */
  function BookDetailsOfBook(b: Book): (d: BookDetails)
    ensures d.title == b.title && d.price == b.price
    ensures d.genre == b.genre && d.stock == b.stock
  {
    BookDetails(b.title, b.price, b.genre, b.stock)
  }

  /** The `BookRequestDto` list of an author's view. Ids of books that are no
      longer stored are skipped; when all are stored the list keeps the
      author's order and length. */
  function BookDetailsOf(books: Table<Book>, ids: seq<int>): (r: seq<BookDetails>)
    ensures |r| <= |ids|
    ensures (forall i :: 0 <= i < |ids| ==> ids[i] in books.rows) ==>
      |r| == |ids| && forall i :: 0 <= i < |ids| ==> r[i] == BookDetailsOfBook(books.rows[ids[i]])
    decreases |ids|
  {
    if ids == [] then []
    else
      var rest := BookDetailsOf(books, ids[1..]);
      if ids[0] in books.rows then [BookDetailsOfBook(books.rows[ids[0]])] + rest else rest
  }

  /** `toDto`: the author's fields, and one book entry per stored book id,
      in the author's order. */
  function ToView(books: Table<Book>, id: int, a: Author): (v: AuthorView)
    ensures v.id == id
    ensures v.firstName == a.firstName && v.lastName == a.lastName
    ensures v.email == a.email && v.nationality == a.nationality
    ensures |v.books| <= |a.books|
    ensures (forall i :: 0 <= i < |a.books| ==> a.books[i] in books.rows) ==>
      |v.books| == |a.books| && forall i :: 0 <= i < |a.books| ==> v.books[i] == BookDetailsOfBook(books.rows[a.books[i]])
  {
    AuthorView(id, a.firstName, a.lastName, a.email, a.nationality, BookDetailsOf(books, a.books))
  }

  /** `getAll`: every stored author once, ascending by id. */
  function GetAll(s: Store): (r: seq<AuthorView>)
    ensures |r| == |s.authors.rows|
    ensures forall i :: 0 <= i < |r| ==>
      r[i].id in s.authors.rows && r[i] == ToView(s.books, r[i].id, s.authors.rows[r[i].id])
    ensures forall i, j :: 0 <= i < j < |r| ==> r[i].id < r[j].id
    ensures forall id :: id in s.authors.rows ==> exists i :: 0 <= i < |r| && r[i].id == id
  {
    var ids := Ids(s.authors);
    var r := ViewsOf(s, ids);
    assert forall k :: 0 <= k < |ids| ==> r[k].id == ids[k];
    r
  }

  /** The views of the listed rows, in the order listed. */
  function ViewsOf(s: Store, ids: seq<int>): (r: seq<AuthorView>)
    requires forall i :: 0 <= i < |ids| ==> ids[i] in s.authors.rows
    ensures |r| == |ids|
    ensures forall i :: 0 <= i < |ids| ==> r[i] == ToView(s.books, ids[i], s.authors.rows[ids[i]])
  {
    seq(|ids|, i requires 0 <= i < |ids| => ToView(s.books, ids[i], s.authors.rows[ids[i]]))
  }

  /** `getById`. */
  function GetById(s: Store, id: int): (r: Result<AuthorView>)
    ensures r.Err? <==> id !in s.authors.rows
    ensures r.Err? ==> r.error == NotFound("Author", id)
    ensures r.Ok? ==> r.value == ToView(s.books, id, s.authors.rows[id])
  {
    match Get(s.authors, id)
    case None => Err(NotFound("Author", id))
    case Some(a) => Ok(ToView(s.books, id, a))
  }

  /** `create`: validation first, then the uniqueness guard, then one new
      author with the request's fields. */
  function Create(s: Store, req: AuthorRequest): (r: Result<Reply<AuthorView>>)
    ensures r.Ok? <==> ValidateAuthorRequest(req).Pass? && !HasEmail(s.authors, req.email.value)
    ensures ValidateAuthorRequest(req).Fail? ==> r == Err(ValidateAuthorRequest(req).error)
    ensures ValidateAuthorRequest(req).Pass? && HasEmail(s.authors, req.email.value) ==>
      r == Err(AlreadyExists("Author", "email", req.email.value))
    ensures r.Ok? ==>
      var s', id := r.value.store, r.value.view.id;
      && s'.(authors := s.authors) == s
      && AddsOne(s.authors, s'.authors, id,
           Author(req.firstName.value, req.lastName.value, req.email.value, req.nationality.value, []))
      && r.value.view == AuthorView(id, req.firstName.value, req.lastName.value, req.email.value, req.nationality.value, [])
    ensures r.Ok? && EmailsUnique(s.authors) ==> EmailsUnique(r.value.store.authors)
    ensures r.Ok? && Linked(s) ==> Linked(r.value.store)
  {
    var check := ValidateAuthorRequest(req);
    if check.Fail? then Err(check.error)
    else
      var unique := ValidateEmailUniqueness(s.authors, req.email.value);
      if unique.Fail? then Err(unique.error)
      else
        var author := ToEntity(req);
        var saved := Insert(s.authors, author);
        Ok(Reply(s.(authors := saved.table), ToView(s.books, saved.id, author)))
  }

  /** Appends `authorId` to the author list of every book in `ids`. */
  function AddAuthorToBooks(books: Table<Book>, ids: seq<int>, authorId: int): (r: Table<Book>)
    requires forall i :: 0 <= i < |ids| ==> ids[i] in books.rows
    requires Increasing(ids)
    ensures r.rows.Keys == books.rows.Keys
    ensures forall id :: id in books.rows ==> r.rows[id] == books.rows[id].(authors := r.rows[id].authors)
    ensures forall id, a :: id in books.rows && a in r.rows[id].authors ==> a in books.rows[id].authors || a == authorId
    ensures forall id :: id in books.rows ==>
      r.rows[id] == if id in ids then books.rows[id].(authors := books.rows[id].authors + [authorId]) else books.rows[id]
    decreases |ids|
  {
    if ids == [] then books
    else
      var b := books.rows[ids[0]];
      assert ids[0] !in ids[1..];
      AddAuthorToBooks(Put(books, ids[0], b.(authors := b.authors + [authorId])), ids[1..], authorId)
  }

  /** `createWithBooks`: as `create`, and the stored books among `bookIds`
      (others are silently dropped) each gain the new author, while the new
      author's books are exactly those found books. */
  function CreateWithBooks(s: Store, req: AuthorRequest, bookIds: seq<int>): (r: Result<Reply<AuthorView>>)
    ensures r.Ok? <==> ValidateAuthorRequest(req).Pass? && !HasEmail(s.authors, req.email.value)
    ensures ValidateAuthorRequest(req).Fail? ==> r == Err(ValidateAuthorRequest(req).error)
    ensures ValidateAuthorRequest(req).Pass? && HasEmail(s.authors, req.email.value) ==>
      r == Err(AlreadyExists("Author", "email", req.email.value))
    ensures r.Ok? ==>
      var s', id := r.value.store, r.value.view.id;
      && s'.(authors := s.authors, books := s.books) == s
      && id in s'.authors.rows
      && AddsOne(s.authors, s'.authors, id, s'.authors.rows[id])
      && var a := s'.authors.rows[id];
      && a.firstName == req.firstName.value && a.lastName == req.lastName.value
      && a.email == req.email.value && a.nationality == req.nationality.value
      && (forall b :: b in a.books <==> b in s.books.rows && b in bookIds)
      && Increasing(a.books)
      && s'.books.rows.Keys == s.books.rows.Keys
      && (forall b :: b in s.books.rows ==>
            s'.books.rows[b] ==
              if b in bookIds then s.books.rows[b].(authors := s.books.rows[b].authors + [id]) else s.books.rows[b])
      && r.value.view == ToView(s'.books, id, a)
    ensures r.Ok? && EmailsUnique(s.authors) ==> EmailsUnique(r.value.store.authors)
    ensures r.Ok? && Linked(s) ==> Linked(r.value.store)
    ensures r.Ok? && BooksWellFormed(s) ==> BooksWellFormed(r.value.store)
  {
    var check := ValidateAuthorRequest(req);
    if check.Fail? then Err(check.error)
    else
      var unique := ValidateEmailUniqueness(s.authors, req.email.value);
      if unique.Fail? then Err(unique.error)
      else
        SaveWithBooksKeepsLinked(s, ToEntity(req), bookIds);
        SaveWithBooksKeepsWellFormed(s, ToEntity(req), bookIds);
        SaveWithBooksKeepsEmailsUnique(s, ToEntity(req), bookIds);
        Ok(SaveWithBooks(s, ToEntity(req), bookIds))
  }

  /** The saving half of `createWithBooks`: the new author gets the found
      books, and each found book gets the new author. */
  function SaveWithBooks(s: Store, author: Author, bookIds: seq<int>): (r: Reply<AuthorView>)
    ensures
      var s', id := r.store, r.view.id;
      && s'.(authors := s.authors, books := s.books) == s
      && id in s'.authors.rows
      && AddsOne(s.authors, s'.authors, id, s'.authors.rows[id])
      && s'.authors.rows[id] == author.(books := s'.authors.rows[id].books)
      && (forall b :: b in s'.authors.rows[id].books <==> b in s.books.rows && b in bookIds)
      && Increasing(s'.authors.rows[id].books)
      && s'.books.rows.Keys == s.books.rows.Keys
      && (forall b :: b in s.books.rows ==>
            s'.books.rows[b] ==
              if b in bookIds then s.books.rows[b].(authors := s.books.rows[b].authors + [id]) else s.books.rows[b])
      && (forall b, a :: b in s.books.rows && a in s'.books.rows[b].authors ==> a in s.books.rows[b].authors || a == id)
      && r.view == ToView(s'.books, id, s'.authors.rows[id])
  {
    var found := FindAllById(s.books, bookIds);
    var saved := Insert(s.authors, author.(books := found));
    var books := AddAuthorToBooks(s.books, found, saved.id);
    Reply(s.(authors := saved.table, books := books), ToView(books, saved.id, saved.table.rows[saved.id]))
  }

  /** `SaveWithBooks` keeps every book and author reference resolvable. */
  lemma SaveWithBooksKeepsLinked(s: Store, author: Author, bookIds: seq<int>)
    ensures Linked(s) ==> Linked(SaveWithBooks(s, author, bookIds).store)
  {
    var r := SaveWithBooks(s, author, bookIds);
    LinkingNewAuthorKeepsLinked(s, r.store, r.view.id);
  }

  /** `SaveWithBooks` changes only author lists of books. */
  lemma SaveWithBooksKeepsWellFormed(s: Store, author: Author, bookIds: seq<int>)
    ensures BooksWellFormed(s) ==> BooksWellFormed(SaveWithBooks(s, author, bookIds).store)
  {
    var r := SaveWithBooks(s, author, bookIds);
    OnlyAuthorListsChangeKeepsWellFormed(s, r.store);
  }

  /** `SaveWithBooks` keeps emails unique when the new email was free. */
  lemma SaveWithBooksKeepsEmailsUnique(s: Store, author: Author, bookIds: seq<int>)
    ensures EmailsUnique(s.authors) && !HasEmail(s.authors, author.email) ==>
      EmailsUnique(SaveWithBooks(s, author, bookIds).store.authors)
  {
    var r := SaveWithBooks(s, author, bookIds);
    NewEmailKeepsUnique(s.authors, r.store.authors, r.view.id);
  }

  lemma OnlyAuthorListsChangeKeepsWellFormed(s: Store, s': Store)
    requires s'.books.rows.Keys == s.books.rows.Keys
    requires forall b :: b in s.books.rows ==> s'.books.rows[b] == s.books.rows[b].(authors := s'.books.rows[b].authors)
    ensures BooksWellFormed(s) ==> BooksWellFormed(s')
  {
  }

  /** Adding one author whose email no stored author has keeps emails
      unique. */
  lemma NewEmailKeepsUnique(authors: Table<Author>, authors': Table<Author>, id: int)
    requires id in authors'.rows && AddsOne(authors, authors', id, authors'.rows[id])
    ensures EmailsUnique(authors) && !HasEmail(authors, authors'.rows[id].email) ==> EmailsUnique(authors')
  {
  }

  /** Adding one author whose books are stored, and appending only that
      author to existing books, keeps every reference resolvable. */
  lemma LinkingNewAuthorKeepsLinked(s: Store, s': Store, id: int)
    requires id in s'.authors.rows && s'.authors.rows == s.authors.rows[id := s'.authors.rows[id]]
    requires forall b :: b in s'.authors.rows[id].books ==> b in s.books.rows
    requires s'.books.rows.Keys == s.books.rows.Keys
    requires forall b, a :: b in s.books.rows && a in s'.books.rows[b].authors ==> a in s.books.rows[b].authors || a == id
    ensures Linked(s) ==> Linked(s')
  {
  }

  /** The stored author after `update`'s merge: each non-null field of the
      request replaces the stored one. */
  function MergeAuthor(a: Author, req: AuthorRequest): (m: Author)
    ensures m.firstName == req.firstName.GetOr(a.firstName) && m.lastName == req.lastName.GetOr(a.lastName)
    ensures m.email == req.email.GetOr(a.email) && m.nationality == req.nationality.GetOr(a.nationality)
    ensures m.books == a.books
  {
    a.(firstName := req.firstName.GetOr(a.firstName),
       lastName := req.lastName.GetOr(a.lastName),
       email := req.email.GetOr(a.email),
       nationality := req.nationality.GetOr(a.nationality))
  }

  /** `update`: not found first; then each field present in the request
      overwrites the stored one and the others, and the books, are kept.
      Nothing is validated and the email is not re-checked for uniqueness. */
  function Update(s: Store, id: int, req: AuthorRequest): (r: Result<Reply<AuthorView>>)
    ensures r.Err? <==> id !in s.authors.rows
    ensures r.Err? ==> r.error == NotFound("Author", id)
    ensures r.Ok? ==> id in r.value.store.authors.rows
    ensures r.Ok? ==>
      var s', before, after := r.value.store, s.authors.rows[id], r.value.store.authors.rows[id];
      && s'.(authors := s.authors) == s
      && s'.authors.rows == s.authors.rows[id := after]
      && (req.firstName.Some? ==> after.firstName == req.firstName.value)
      && (req.firstName.None? ==> after.firstName == before.firstName)
      && (req.lastName.Some? ==> after.lastName == req.lastName.value)
      && (req.lastName.None? ==> after.lastName == before.lastName)
      && (req.email.Some? ==> after.email == req.email.value)
      && (req.email.None? ==> after.email == before.email)
      && (req.nationality.Some? ==> after.nationality == req.nationality.value)
      && (req.nationality.None? ==> after.nationality == before.nationality)
      && after.books == before.books
      && r.value.view == ToView(s.books, id, after)
    ensures r.Ok? && Linked(s) ==> Linked(r.value.store)
  {
    match Get(s.authors, id)
    case None => Err(NotFound("Author", id))
    case Some(a) =>
      var merged := MergeAuthor(a, req);
      Ok(Reply(s.(authors := Put(s.authors, id, merged)), ToView(s.books, id, merged)))
  }

  /** `delete`: an absent id is an error; otherwise exactly that author is
      removed. */
  function Delete(s: Store, id: int): (r: Result<Store>)
    ensures r.Err? <==> id !in s.authors.rows
    ensures r.Err? ==> r.error == NotFound("Author", id)
    ensures r.Ok? ==> r.value.(authors := s.authors) == s && r.value.authors.rows == s.authors.rows - {id}
  {
    if id !in s.authors.rows then Err(NotFound("Author", id))
    else Ok(s.(authors := Remove(s.authors, id)))
  }
}

=== FILE: book_service.dfy ===
/** `BookService`: validation of book requests, the book create, update,
    delete and lookups, attaching an author, and creating a book together with
    its author, reusing an existing author with the same email. */
module BookService {
  import opened Common
  import opened Tables
  import opened Entities
  import AuthorService

  /** `validateBookRequestDto`: passes exactly when title and genre are present,
      the price is positive and the stock is not negative; otherwise reports
      the first violation in the order title, genre, zero price, negative
      price, negative stock. A negative price is reported under the field
      name "stock". */
  function ValidateBookRequest(req: BookRequest): (c: Check)
    ensures c.Pass? <==> req.title.Some? && req.genre.Some? && req.price > 0.0 && req.stock >= 0
    ensures req.title.None? ==> c == Fail(Validation("title", None))
    ensures req.title.Some? && req.genre.None? ==> c == Fail(Validation("genre", None))
    ensures req.title.Some? && req.genre.Some? && req.price == 0.0 ==> c == Fail(Validation("price", None))
    ensures req.title.Some? && req.genre.Some? && req.price < 0.0 ==>
      c == Fail(Validation("stock", Some("price should be greater than 0")))
    ensures (req.title.Some? && req.genre.Some? && req.price > 0.0 && req.stock < 0) ==>
      c == Fail(Validation("stock", Some("stock should be greater than 0")))
  {
    if req.title.None? then Fail(Validation("title", None))
    else if req.genre.None? then Fail(Validation("genre", None))
    else if req.price == 0.0 then Fail(Validation("price", None))
    else if req.price < 0.0 then Fail(Validation("stock", Some("price should be greater than 0")))
    else if req.stock < 0 then Fail(Validation("stock", Some("stock should be greater than 0")))
    else Pass
  }

  /** `toEntity`: a new book carrying the request's fields and no authors. */
  function ToEntity(req: BookRequest): (b: Book)
    requires ValidateBookRequest(req).Pass?
    ensures b.title == req.title.value && b.genre == req.genre.value
    ensures b.price == req.price && b.stock == req.stock
    ensures b.authors == []
    ensures b.price > 0.0 && b.stock >= 0
  {
    Book(req.title.value, req.genre.value, req.price, req.stock, [])
  }

  /** The `AuthorRequestDto` of one author: its four fields, without books. */
  function AuthorDetailsOfAuthor(a: Author): (d: AuthorDetails)
    ensures d.firstName == a.firstName && d.lastName == a.lastName
    ensures d.email == a.email && d.nationality == a.nationality
  {
    AuthorDetails(a.firstName, a.lastName, a.email, a.nationality)
  }

  /** The `AuthorRequestDto` list of a book's view. Ids of authors that are
      no longer stored are skipped; when all are stored the list keeps the
      book's order and length. */
  function AuthorDetailsOf(authors: Table<Author>, ids: seq<int>): (r: seq<AuthorDetails>)
    ensures |r| <= |ids|
    ensures (forall i :: 0 <= i < |ids| ==> ids[i] in authors.rows) ==>
      |r| == |ids| && forall i :: 0 <= i < |ids| ==> r[i] == AuthorDetailsOfAuthor(authors.rows[ids[i]])
    decreases |ids|
  {
    if ids == [] then []
    else
      var rest := AuthorDetailsOf(authors, ids[1..]);
      if ids[0] in authors.rows then [AuthorDetailsOfAuthor(authors.rows[ids[0]])] + rest else rest
  }

  /** The author list of a view grows by one entry when a stored author is
      appended to the book. */
  lemma {:induction false} AuthorDetailsOfAppend(authors: Table<Author>, ids: seq<int>, id: int)
    requires id in authors.rows
    ensures AuthorDetailsOf(authors, ids + [id]) == AuthorDetailsOf(authors, ids) + [AuthorDetailsOfAuthor(authors.rows[id])]
    decreases |ids|
  {
    if ids == [] {
      assert ids + [id] == [id];
    } else {
      assert (ids + [id])[1..] == ids[1..] + [id];
      AuthorDetailsOfAppend(authors, ids[1..], id);
    }
  }

  /** `toDto`: the book's fields, and one author entry per stored author id,
      in the book's order. */
  function ToView(authors: Table<Author>, id: int, b: Book): (v: BookView)
    ensures v.id == id && v.title == b.title && v.genre == b.genre
    ensures v.price == b.price && v.stock == b.stock
    ensures |v.authors| <= |b.authors|
    ensures (forall i :: 0 <= i < |b.authors| ==> b.authors[i] in authors.rows) ==>
      |v.authors| == |b.authors| && forall i :: 0 <= i < |b.authors| ==> v.authors[i] == AuthorDetailsOfAuthor(authors.rows[b.authors[i]])
  {
    BookView(id, b.title, b.genre, b.price, b.stock, AuthorDetailsOf(authors, b.authors))
  }

  /** `getAll`: every stored book once, ascending by id. */
  function GetAll(s: Store): (r: seq<BookView>)
    ensures |r| == |s.books.rows|
    ensures forall i :: 0 <= i < |r| ==>
      r[i].id in s.books.rows && r[i] == ToView(s.authors, r[i].id, s.books.rows[r[i].id])
    ensures forall i, j :: 0 <= i < j < |r| ==> r[i].id < r[j].id
    ensures forall id :: id in s.books.rows ==> exists i :: 0 <= i < |r| && r[i].id == id
  {
    var ids := Ids(s.books);
    var r := ViewsOf(s, ids);
    assert forall k :: 0 <= k < |ids| ==> r[k].id == ids[k];
    r
  }

  /** The views of the listed rows, in the order listed. */
  function ViewsOf(s: Store, ids: seq<int>): (r: seq<BookView>)
    requires forall i :: 0 <= i < |ids| ==> ids[i] in s.books.rows
    ensures |r| == |ids|
    ensures forall i :: 0 <= i < |ids| ==> r[i] == ToView(s.authors, ids[i], s.books.rows[ids[i]])
  {
    seq(|ids|, i requires 0 <= i < |ids| => ToView(s.authors, ids[i], s.books.rows[ids[i]]))
  }

  /** `getById`. */
  function GetById(s: Store, id: int): (r: Result<BookView>)
    ensures r.Err? <==> id !in s.books.rows
    ensures r.Err? ==> r.error == NotFound("Book", id)
    ensures r.Ok? ==> r.value == ToView(s.authors, id, s.books.rows[id])
  {
    match Get(s.books, id)
    case None => Err(NotFound("Book", id))
    case Some(b) => Ok(ToView(s.authors, id, b))
  }

  /** `create`: one new book with the request's fields and no authors, or the
      first validation failure. */
  function Create(s: Store, req: BookRequest): (r: Result<Reply<BookView>>)
    ensures r.Ok? <==> ValidateBookRequest(req).Pass?
    ensures r.Err? ==> r.error == ValidateBookRequest(req).error
    ensures r.Ok? ==>
      var s', id := r.value.store, r.value.view.id;
      && s'.(books := s.books) == s
      && AddsOne(s.books, s'.books, id, Book(req.title.value, req.genre.value, req.price, req.stock, []))
      && r.value.view == BookView(id, req.title.value, req.genre.value, req.price, req.stock, [])
    ensures r.Ok? && BooksWellFormed(s) ==> BooksWellFormed(r.value.store)
    ensures r.Ok? && Linked(s) ==> Linked(r.value.store)
  {
    var check := ValidateBookRequest(req);
    if check.Fail? then Err(check.error)
    else
      var book := ToEntity(req);
      var saved := Insert(s.books, book);
      Ok(Reply(s.(books := saved.table), ToView(s.authors, saved.id, book)))
  }

  /** The new book of `createBookWithNewAuthor` is saved with `authorId` as
      its only author. */
  function SaveWithAuthor(s: Store, req: BookRequest, authorId: int): (r: Reply<BookView>)
    requires ValidateBookRequest(req).Pass?
    requires authorId in s.authors.rows
    ensures
      var s', id := r.store, r.view.id;
      && s'.(books := s.books) == s
      && AddsOne(s.books, s'.books, id, Book(req.title.value, req.genre.value, req.price, req.stock, [authorId]))
      && r.view == BookView(id, req.title.value, req.genre.value, req.price, req.stock,
                            [AuthorDetailsOfAuthor(s.authors.rows[authorId])])
    ensures BooksWellFormed(s) ==> BooksWellFormed(r.store)
    ensures Linked(s) ==> Linked(r.store)
  {
    var book := ToEntity(req).(authors := [authorId]);
    var saved := Insert(s.books, book);
    Reply(s.(books := saved.table), ToView(s.authors, saved.id, saved.table.rows[saved.id]))
  }

  /** `createBookWithNewAuthor`: the book request is validated, then the
      author request; then the book is saved with the author that already has
      the request's email, or else with one new author saved from the request.
      It never reports `AlreadyExists`. */
  function CreateBookWithNewAuthor(s: Store, book: BookRequest, author: AuthorRequest): (r: Result<Reply<BookView>>)
    ensures r.Ok? <==> ValidateBookRequest(book).Pass? && AuthorService.ValidateAuthorRequest(author).Pass?
    ensures ValidateBookRequest(book).Fail? ==> r == Err(ValidateBookRequest(book).error)
    ensures ValidateBookRequest(book).Pass? && AuthorService.ValidateAuthorRequest(author).Fail? ==>
      r == Err(AuthorService.ValidateAuthorRequest(author).error)
    ensures r.Err? ==> r.error.Validation?
    ensures r.Ok? ==>
      var s', id := r.value.store, r.value.view.id;
      && s'.(books := s.books, authors := s.authors) == s
      && id in s'.books.rows
      && |s'.books.rows[id].authors| == 1
      && AddsOne(s.books, s'.books, id,
           Book(book.title.value, book.genre.value, book.price, book.stock, s'.books.rows[id].authors))
      && s'.books.rows[id].authors[0] in s'.authors.rows
      && s'.authors.rows[s'.books.rows[id].authors[0]].email == author.email.value
      && r.value.view == ToView(s'.authors, id, s'.books.rows[id])
    ensures r.Ok? && AuthorService.HasEmail(s.authors, author.email.value) ==>
      var s' := r.value.store;
      && s'.authors == s.authors
      && var aid := s'.books.rows[r.value.view.id].authors[0];
      && forall other :: other in s.authors.rows && s.authors.rows[other].email == author.email.value ==> aid <= other
    ensures r.Ok? && !AuthorService.HasEmail(s.authors, author.email.value) ==>
      var s' := r.value.store;
      var aid := s'.books.rows[r.value.view.id].authors[0];
      AddsOne(s.authors, s'.authors, aid, AuthorService.ToEntity(author))
    ensures r.Ok? && BooksWellFormed(s) ==> BooksWellFormed(r.value.store)
    ensures r.Ok? && Linked(s) ==> Linked(r.value.store)
    ensures r.Ok? && AuthorService.EmailsUnique(s.authors) ==> AuthorService.EmailsUnique(r.value.store.authors)
  {
    var bookCheck := ValidateBookRequest(book);
    if bookCheck.Fail? then Err(bookCheck.error)
    else
      var authorCheck := AuthorService.ValidateAuthorRequest(author);
      if authorCheck.Fail? then Err(authorCheck.error)
      else
        match AuthorService.FindByEmail(s.authors, author.email.value)
        case Some(existing) =>
          Ok(SaveWithAuthor(s, book, existing))
        case None =>
          var newAuthor := Insert(s.authors, AuthorService.ToEntity(author));
          AuthorService.NewEmailKeepsUnique(s.authors, newAuthor.table, newAuthor.id);
          Ok(SaveWithAuthor(s.(authors := newAuthor.table), book, newAuthor.id))
  }

  /** `update`: not found is reported before validation. The request is
      validated in full, so every guard of the merge holds and title, genre,
      price and stock are all overwritten; the author list is kept. */
  function Update(s: Store, id: int, req: BookRequest): (r: Result<Reply<BookView>>)
    ensures id !in s.books.rows ==> r == Err(NotFound("Book", id))
    ensures id in s.books.rows && ValidateBookRequest(req).Fail? ==> r == Err(ValidateBookRequest(req).error)
    ensures r.Ok? <==> id in s.books.rows && ValidateBookRequest(req).Pass?
    ensures r.Ok? ==>
      var s', after := r.value.store, Book(req.title.value, req.genre.value, req.price, req.stock, s.books.rows[id].authors);
      && s'.(books := s.books) == s
      && s'.books.rows == s.books.rows[id := after]
      && r.value.view == ToView(s.authors, id, after)
    ensures r.Ok? && BooksWellFormed(s) ==> BooksWellFormed(r.value.store)
    ensures r.Ok? && Linked(s) ==> Linked(r.value.store)
  {
    match Get(s.books, id)
    case None => Err(NotFound("Book", id))
    case Some(existing) =>
      var check := ValidateBookRequest(req);
      if check.Fail? then Err(check.error)
      else
        var b1 := if req.title.Some? then existing.(title := req.title.value) else existing;
        var b2 := if req.genre.Some? then b1.(genre := req.genre.value) else b1;
        var b3 := if req.price != 0.0 then b2.(price := req.price) else b2;
        var b4 := if req.stock >= 0 then b3.(stock := req.stock) else b3;
        Ok(Reply(s.(books := Put(s.books, id, b4)), ToView(s.authors, id, b4)))
  }

  /** `attachAuthor`: a missing book is reported before a missing author;
      otherwise the author is appended to that book's author list and nothing
      else changes. */
  function AttachAuthor(s: Store, bookId: int, authorId: int): (r: Result<Reply<BookView>>)
    ensures bookId !in s.books.rows ==> r == Err(NotFound("Book", bookId))
    ensures bookId in s.books.rows && authorId !in s.authors.rows ==> r == Err(NotFound("Author", authorId))
    ensures r.Ok? <==> bookId in s.books.rows && authorId in s.authors.rows
    ensures r.Ok? ==>
      var s', before := r.value.store, s.books.rows[bookId];
      && s'.(books := s.books) == s
      && s'.books.rows == s.books.rows[bookId := before.(authors := before.authors + [authorId])]
      && r.value.view == ToView(s.authors, bookId, s'.books.rows[bookId])
      && r.value.view.authors == ToView(s.authors, bookId, before).authors + [AuthorDetailsOfAuthor(s.authors.rows[authorId])]
    ensures r.Ok? && BooksWellFormed(s) ==> BooksWellFormed(r.value.store)
    ensures r.Ok? && Linked(s) ==> Linked(r.value.store)
  {
    match Get(s.books, bookId)
    case None => Err(NotFound("Book", bookId))
    case Some(book) =>
      match Get(s.authors, authorId)
      case None => Err(NotFound("Author", authorId))
      case Some(_) =>
        var attached := book.(authors := book.authors + [authorId]);
        AuthorDetailsOfAppend(s.authors, book.authors, authorId);
        Ok(Reply(s.(books := Put(s.books, bookId, attached)), ToView(s.authors, bookId, attached)))
  }

  /** `delete`: an absent id is an error; otherwise exactly that book is
      removed. */
  function Delete(s: Store, id: int): (r: Result<Store>)
    ensures r.Err? <==> id !in s.books.rows
    ensures r.Err? ==> r.error == NotFound("Book", id)
    ensures r.Ok? ==> r.value.(books := s.books) == s && r.value.books.rows == s.books.rows - {id}
    ensures r.Ok? && BooksWellFormed(s) ==> BooksWellFormed(r.value)
  {
    if id !in s.books.rows then Err(NotFound("Book", id))
    else Ok(s.(books := Remove(s.books, id)))
  }
}

=== FILE: common.dfy ===
/** Values shared by every service of the bookstore: nullable request fields,
    the exceptions the services raise, and the shape of a service call's result. */
module Common {

  /** A Java reference that may be null: `None` is `null`. */
  datatype Option<+T> = None | Some(value: T) {

    /** The value if not null, else `default`: how the services merge a
        request field into a stored one. */
    function GetOr(default: T): T
    {
      match this
      case Some(v) => v
      case None => default
    }
  }

  /** The exceptions the services throw.
      - `Validation` is `ValidationException(attributeName)` when `reason` is
        `None`, and `ValidationException(attributeName, message)` otherwise.
      - `AlreadyExists` is `AttributeAlreadyExistsException`.
      - `NotFound` is JPA's `EntityNotFoundException`, naming the entity the
        message names.
      - `UsernameNotFound` is Spring Security's `UsernameNotFoundException`. */
  datatype Error =
    | Validation(field: string, reason: Option<string>)
    | AlreadyExists(entity: string, attribute: string, value: string)
    | NotFound(entity: string, id: int)
    | UsernameNotFound(username: string)

  /** The result of a service call: a value, or the exception it threw. */
  datatype Result<+T> = Ok(value: T) | Err(error: Error)

  /** The outcome of a request validator: it passes, or reports the first
      violation it meets. */
  datatype Check = Pass | Fail(error: Error)

  /** The message `ValidationException` carries. */
  function ValidationMessage(field: string, reason: Option<string>): (m: string)
    ensures |m| > |field| + 2 && m[..|field|] == field && m[|field|] == ' '
    ensures reason.None? ==> m[|field| + 1..] == "is required"
    ensures reason.Some? ==> m[|field| + 1..|field| + 3] == "- " && m[|field| + 3..] == reason.value
  {
    match reason
    case None => field + " is required"
    case Some(text) => field + " - " + text
  }

  /** The message `AttributeAlreadyExistsException` carries. */
  function AlreadyExistsMessage(entity: string, attribute: string, value: string): (m: string)
    ensures |m| == |entity| + 21 + |attribute| + 2 + |value|
    ensures m[..|entity|] == entity && m[|entity|..|entity| + 21] == " already exists with "
    ensures m[|entity| + 21..|entity| + 21 + |attribute|] == attribute
    ensures m[|m| - |value| - 2..] == ": " + value
  {
    entity + " already exists with " + attribute + ": " + value
  }

  /** A validation message names its field first, and the field and reason can
      be read back from it: two messages for the same field are equal only
      when they report the same reason. */
  lemma {:induction false} ValidationMessageDeterminesReason(field: string, r1: Option<string>, r2: Option<string>)
    requires ValidationMessage(field, r1) == ValidationMessage(field, r2)
    ensures r1 == r2
  {
    var m := ValidationMessage(field, r1);
    var n := |field|;
    // " is required" and " - ..." differ in the character after the blank
    assert r1.None? ==> m[n + 1] == 'i';
    assert r1.Some? ==> m[n + 1] == '-';
    assert r2.None? ==> ValidationMessage(field, r2)[n + 1] == 'i';
    assert r2.Some? ==> ValidationMessage(field, r2)[n + 1] == '-';
    if r1.Some? && r2.Some? {
      assert r1.value == m[n + 3..];
      assert r2.value == ValidationMessage(field, r2)[n + 3..];
    }
  }

  /** For a fixed entity and attribute, the duplicate value can be read back
      from the message. */
  lemma {:induction false} AlreadyExistsMessageDeterminesValue(entity: string, attribute: string, v1: string, v2: string)
    requires AlreadyExistsMessage(entity, attribute, v1) == AlreadyExistsMessage(entity, attribute, v2)
    ensures v1 == v2
  {
    var prefix := entity + " already exists with " + attribute + ": ";
    assert AlreadyExistsMessage(entity, attribute, v1) == prefix + v1;
    assert AlreadyExistsMessage(entity, attribute, v2) == prefix + v2;
    assert v1 == (prefix + v1)[|prefix|..];
    assert v2 == (prefix + v2)[|prefix|..];
  }
}

=== FILE: customer_service.dfy ===
/** `CustomerService`: validation of customer requests, including the email
    uniqueness check, and the customer create, update, delete and lookups. */
module CustomerService {
  import opened Common
  import opened Tables
  import opened Entities
  import opened EmailPattern

  ghost predicate HasEmail(customers: Table<Customer>, email: string)
  {
    exists id :: id in customers.rows && customers.rows[id].email == email
  }

  /** `findByEmail`: the customer with that email (the lowest id if several). */
  function FindByEmail(customers: Table<Customer>, email: string): (r: Option<int>)
    ensures r.Some? <==> HasEmail(customers, email)
    ensures r.Some? ==> r.value in customers.rows && customers.rows[r.value].email == email
  {
    FindFirst(customers, (c: Customer) => c.email == email)
  }

  /** `validateCustomerRequestDto`: passes exactly when every field is
      present, the email matches the address pattern and no stored customer
      has it; otherwise reports the first violation in the order firstName,
      lastName, email, email format, email taken, phoneNumber, address. */
  function ValidateCustomerRequest(customers: Table<Customer>, req: CustomerRequest): (c: Check)
    ensures c.Pass? <==>
      && req.firstName.Some? && req.lastName.Some? && req.email.Some?
      && MatchesPattern(req.email.value) && !HasEmail(customers, req.email.value)
      && req.phoneNumber.Some? && req.address.Some?
    ensures req.firstName.None? ==> c == Fail(Validation("firstName", None))
    ensures req.firstName.Some? && req.lastName.None? ==> c == Fail(Validation("lastName", None))
    ensures req.firstName.Some? && req.lastName.Some? && req.email.None? ==>
      c == Fail(Validation("email", None))
    ensures req.firstName.Some? && req.lastName.Some? && req.email.Some? && !MatchesPattern(req.email.value) ==>
      c == Fail(Validation("email", Some("Invalid email format")))
    ensures (req.firstName.Some? && req.lastName.Some? && req.email.Some? && MatchesPattern(req.email.value)
             && HasEmail(customers, req.email.value)) ==>
      c == Fail(AlreadyExists("Customer", "email", req.email.value))
    ensures (req.firstName.Some? && req.lastName.Some? && req.email.Some? && MatchesPattern(req.email.value)
             && !HasEmail(customers, req.email.value) && req.phoneNumber.None?) ==>
      c == Fail(Validation("phoneNumber", None))
    ensures (req.firstName.Some? && req.lastName.Some? && req.email.Some? && MatchesPattern(req.email.value)
             && !HasEmail(customers, req.email.value) && req.phoneNumber.Some? && req.address.None?) ==>
      c == Fail(Validation("address", None))
  {
    if req.firstName.None? then Fail(Validation("firstName", None))
    else if req.lastName.None? then Fail(Validation("lastName", None))
    else if req.email.None? then Fail(Validation("email", None))
    else
      EmailMatcherAgreesWithPattern(req.email.value);
      if !IsEmailAddress(req.email.value) then Fail(Validation("email", Some("Invalid email format")))
      else if FindByEmail(customers, req.email.value).Some? then
        Fail(AlreadyExists("Customer", "email", req.email.value))
      else if req.phoneNumber.None? then Fail(Validation("phoneNumber", None))
      else if req.address.None? then Fail(Validation("address", None))
      else Pass
  }

  /** `toEntity`: a customer carrying the request's five fields. */
  function ToEntity(req: CustomerRequest): (c: Customer)
    requires req.firstName.Some? && req.lastName.Some? && req.email.Some?
    requires req.phoneNumber.Some? && req.address.Some?
    ensures c.firstName == req.firstName.value && c.lastName == req.lastName.value
    ensures c.email == req.email.value && c.phoneNumber == req.phoneNumber.value
    ensures c.address == req.address.value
  {
    Customer(req.firstName.value, req.lastName.value, req.email.value, req.phoneNumber.value, req.address.value)
  }

  /** `toDto`: the stored fields, plus the full name made of the first name,
      one blank and the last name. */
  function ToView(id: int, c: Customer): (v: CustomerView)
    ensures v.id == id && v.firstName == c.firstName && v.lastName == c.lastName
    ensures v.email == c.email && v.phoneNumber == c.phoneNumber && v.address == c.address
    ensures |v.fullName| == |c.firstName| + 1 + |c.lastName|
    ensures v.fullName[..|c.firstName|] == c.firstName
    ensures v.fullName[|c.firstName|] == ' '
    ensures v.fullName[|c.firstName| + 1..] == c.lastName
  {
    CustomerView(id, c.firstName, c.lastName, c.firstName + " " + c.lastName, c.email, c.phoneNumber, c.address)
  }

  /** The view is the stored customer with a full name added: the customer
      can be read back from it. */
  lemma ViewDeterminesCustomer(id: int, c: Customer, d: Customer)
    requires ToView(id, c) == ToView(id, d)
    ensures c == d
  {
  }

  /** `getAll`: every stored customer once, ascending by id. */
  function GetAll(s: Store): (r: seq<CustomerView>)
    ensures |r| == |s.customers.rows|
    ensures forall i :: 0 <= i < |r| ==>
      r[i].id in s.customers.rows && r[i] == ToView(r[i].id, s.customers.rows[r[i].id])
    ensures forall i, j :: 0 <= i < j < |r| ==> r[i].id < r[j].id
    ensures forall id :: id in s.customers.rows ==> exists i :: 0 <= i < |r| && r[i].id == id
  {
    var ids := Ids(s.customers);
    var r := ViewsOf(s, ids);
    assert forall k :: 0 <= k < |ids| ==> r[k].id == ids[k];
    r
  }

  /** The views of the listed rows, in the order listed. */
  function ViewsOf(s: Store, ids: seq<int>): (r: seq<CustomerView>)
    requires forall i :: 0 <= i < |ids| ==> ids[i] in s.customers.rows
    ensures |r| == |ids|
    ensures forall i :: 0 <= i < |ids| ==> r[i] == ToView(ids[i], s.customers.rows[ids[i]])
  {
    seq(|ids|, i requires 0 <= i < |ids| => ToView(ids[i], s.customers.rows[ids[i]]))
  }

  /** `getById`. */
  function GetById(s: Store, id: int): (r: Result<CustomerView>)
    ensures r.Err? <==> id !in s.customers.rows
    ensures r.Err? ==> r.error == NotFound("Customer", id)
    ensures r.Ok? ==> r.value == ToView(id, s.customers.rows[id])
  {
    match Get(s.customers, id)
    case None => Err(NotFound("Customer", id))
    case Some(c) => Ok(ToView(id, c))
  }

  /** `create`: one new customer with the request's fields, or the first
      validation failure. No two stored customers share an email afterwards if
      none did before. */
  function Create(s: Store, req: CustomerRequest): (r: Result<Reply<CustomerView>>)
    ensures r.Ok? <==> ValidateCustomerRequest(s.customers, req).Pass?
    ensures r.Err? ==> r.error == ValidateCustomerRequest(s.customers, req).error
    ensures r.Ok? ==>
      var s', id := r.value.store, r.value.view.id;
      var c := Customer(req.firstName.value, req.lastName.value, req.email.value, req.phoneNumber.value, req.address.value);
      && s'.(customers := s.customers) == s
      && AddsOne(s.customers, s'.customers, id, c)
      && r.value.view == ToView(id, c)
    ensures r.Ok? && EmailsUnique(s.customers) ==> EmailsUnique(r.value.store.customers)
    ensures r.Ok? && PurchasesResolve(s) ==> PurchasesResolve(r.value.store)
  {
    var check := ValidateCustomerRequest(s.customers, req);
    if check.Fail? then Err(check.error)
    else
      var customer := ToEntity(req);
      var saved := Insert(s.customers, customer);
      Ok(Reply(s.(customers := saved.table), ToView(saved.id, customer)))
  }

  /** No two stored customers share an email. */
  ghost predicate EmailsUnique(customers: Table<Customer>)
  {
    forall i, j :: i in customers.rows && j in customers.rows && customers.rows[i].email == customers.rows[j].email ==> i == j
  }

  /** The merge of `update`: each field the request gives replaces the stored
      one. */
  function Merge(c: Customer, req: CustomerRequest): (m: Customer)
    ensures m.firstName == req.firstName.GetOr(c.firstName) && m.lastName == req.lastName.GetOr(c.lastName)
    ensures m.email == req.email.GetOr(c.email) && m.phoneNumber == req.phoneNumber.GetOr(c.phoneNumber)
    ensures m.address == req.address.GetOr(c.address)
  {
    Customer(
      req.firstName.GetOr(c.firstName), req.lastName.GetOr(c.lastName), req.email.GetOr(c.email),
      req.phoneNumber.GetOr(c.phoneNumber), req.address.GetOr(c.address))
  }

  /** Merging the same request twice is merging it once, and a request with
      no fields changes nothing. */
  lemma MergeIdempotent(c: Customer, req: CustomerRequest)
    ensures Merge(Merge(c, req), req) == Merge(c, req)
    ensures req == CustomerRequest(None, None, None, None, None) ==> Merge(c, req) == c
  {
  }

  /** `update`: an absent id is an error; otherwise each field the request
      gives is written, without validation or email check. */
  function Update(s: Store, id: int, req: CustomerRequest): (r: Result<Reply<CustomerView>>)
    ensures r.Err? <==> id !in s.customers.rows
    ensures r.Err? ==> r.error == NotFound("Customer", id)
    ensures r.Ok? ==>
      var s', after := r.value.store, Merge(s.customers.rows[id], req);
      && s'.(customers := s.customers) == s
      && s'.customers.rows == s.customers.rows[id := after]
      && r.value.view == ToView(id, after)
    ensures r.Ok? && PurchasesResolve(s) ==> PurchasesResolve(r.value.store)
  {
    match Get(s.customers, id)
    case None => Err(NotFound("Customer", id))
    case Some(existing) =>
      var after := Merge(existing, req);
      Ok(Reply(s.(customers := Put(s.customers, id, after)), ToView(id, after)))
  }

  /** `delete`: an absent id is an error; otherwise exactly that customer is
      removed. */
  function Delete(s: Store, id: int): (r: Result<Store>)
    ensures r.Err? <==> id !in s.customers.rows
    ensures r.Err? ==> r.error == NotFound("Customer", id)
    ensures r.Ok? ==> r.value.(customers := s.customers) == s && r.value.customers.rows == s.customers.rows - {id}
    ensures r.Ok? && EmailsUnique(s.customers) ==> EmailsUnique(r.value.customers)
  {
    if id !in s.customers.rows then Err(NotFound("Customer", id))
    else Ok(s.(customers := Remove(s.customers, id)))
  }
}

=== FILE: email_pattern.dfy ===
/** The email check the author and customer validators share: a whole-string
    match of the regular expression `^[A-Za-z0-9+_.-]+@(.+)$` in Java's
    default mode. */
module EmailPattern {

  /** The character class `[A-Za-z0-9+_.-]`. */
  predicate IsLocalChar(c: char)
  {
    ('A' <= c <= 'Z') || ('a' <= c <= 'z') || ('0' <= c <= '9')
    || c == '+' || c == '_' || c == '.' || c == '-'
  }

  /** The characters Java's `.` does not match when DOTALL is off. */
  predicate IsLineTerminator(c: char)
  {
    c == '\n' || c == '\r' || c == '\U{85}' || c == '\U{2028}' || c == '\U{2029}'
  }

  ghost predicate AllLocal(s: string)
  {
    forall i :: 0 <= i < |s| ==> IsLocalChar(s[i])
  }

  /** The group `(.+)`: one or more characters, none a line terminator. */
  predicate IsDomain(s: string)
  {
    |s| > 0 && forall i :: 0 <= i < |s| ==> !IsLineTerminator(s[i])
  }

  /** The language of the pattern, read off the regular expression: a
      non-empty run of local characters, an `@`, then the domain. */
  ghost predicate MatchesPattern(s: string)
    ensures MatchesPattern(s) ==> 3 <= |s| && IsLocalChar(s[0]) && '@' in s[1..]
  {
    exists i :: 0 < i < |s| && s[i] == '@' && AllLocal(s[..i]) && IsDomain(s[i + 1..])
  }

  /** The matcher, one character at a time: a local character, then
      `LocalThenDomain`. */
  predicate IsEmailAddress(s: string)
    ensures IsEmailAddress(s) ==> 3 <= |s| && IsLocalChar(s[0]) && s[0] != '@'
  {
    |s| > 0 && IsLocalChar(s[0]) && (LocalThenDomainIsLong(s[1..]); LocalThenDomain(s[1..]))
  }

  /** More local characters, then `@`, then the domain. `@` is not a local
      character, so the first `@` ends the local part. */
  predicate LocalThenDomain(s: string)
    decreases |s|
  {
    |s| > 0 &&
    if s[0] == '@' then IsDomain(s[1..])
    else IsLocalChar(s[0]) && LocalThenDomain(s[1..])
  }

  /** What `LocalThenDomain` accepts holds at least the `@` and one domain
      character. */
  lemma LocalThenDomainIsLong(s: string)
    ensures LocalThenDomain(s) ==> 2 <= |s|
  {
    if LocalThenDomain(s) && s[0] != '@' {
      assert LocalThenDomain(s[1..]);
    }
  }

  lemma {:induction false} LocalThenDomainSplits(s: string)
    ensures LocalThenDomain(s) <==>
      exists i :: 0 <= i < |s| && s[i] == '@' && AllLocal(s[..i]) && IsDomain(s[i + 1..])
    decreases |s|
  {
    if |s| == 0 {
    } else if s[0] == '@' {
      NoLocalPartBeforeLeadingAt(s);
      if LocalThenDomain(s) {
        assert s[..0] == [];
        assert 0 < |s| && s[0] == '@' && AllLocal(s[..0]) && IsDomain(s[1..]);
      }
      if exists i :: 0 <= i < |s| && s[i] == '@' && AllLocal(s[..i]) && IsDomain(s[i + 1..]) {
        var i :| 0 <= i < |s| && s[i] == '@' && AllLocal(s[..i]) && IsDomain(s[i + 1..]);
      }
    } else {
      var t := s[1..];
      LocalThenDomainSplits(t);
      if LocalThenDomain(s) {
        var j :| 0 <= j < |t| && t[j] == '@' && AllLocal(t[..j]) && IsDomain(t[j + 1..]);
        assert s[..j + 1] == [s[0]] + t[..j];
        assert s[j + 2..] == t[j + 1..];
        assert AllLocal(s[..j + 1]);
      }
      if exists i :: 0 <= i < |s| && s[i] == '@' && AllLocal(s[..i]) && IsDomain(s[i + 1..]) {
        var i :| 0 <= i < |s| && s[i] == '@' && AllLocal(s[..i]) && IsDomain(s[i + 1..]);
        assert i > 0;
        assert s[..i][0] == s[0];
        assert t[..i - 1] == s[1..i];
        assert AllLocal(t[..i - 1]);
        assert t[i..] == s[i + 1..];
        assert 0 <= i - 1 < |t| && t[i - 1] == '@' && AllLocal(t[..i - 1]) && IsDomain(t[i..]);
      }
    }
  }

  /** `@` is not a local character, so no non-empty prefix of a string that
      starts with `@` is a local part. */
  lemma NoLocalPartBeforeLeadingAt(s: string)
    requires |s| > 0 && s[0] == '@'
    ensures forall i :: 0 < i <= |s| ==> !AllLocal(s[..i])
  {
    forall i | 0 < i <= |s|
      ensures !AllLocal(s[..i])
    {
      assert s[..i][0] == '@';
    }
  }

  /** The matcher accepts exactly the language of the pattern. */
  lemma {:induction false} EmailMatcherAgreesWithPattern(s: string)
    ensures IsEmailAddress(s) <==> MatchesPattern(s)
  {
    if |s| > 0 {
      var t := s[1..];
      LocalThenDomainSplits(t);
      if IsEmailAddress(s) {
        var j :| 0 <= j < |t| && t[j] == '@' && AllLocal(t[..j]) && IsDomain(t[j + 1..]);
        assert s[..j + 1] == [s[0]] + t[..j];
        assert s[j + 2..] == t[j + 1..];
        assert AllLocal(s[..j + 1]);
        assert 0 < j + 1 < |s| && s[j + 1] == '@';
      }
      if MatchesPattern(s) {
        var i :| 0 < i < |s| && s[i] == '@' && AllLocal(s[..i]) && IsDomain(s[i + 1..]);
        assert s[..i][0] == s[0];
        assert t[..i - 1] == s[1..i];
        assert AllLocal(t[..i - 1]);
        assert t[i..] == s[i + 1..];
        assert 0 <= i - 1 < |t| && t[i - 1] == '@' && AllLocal(t[..i - 1]) && IsDomain(t[i..]);
      }
    }
  }

  /** The pattern on small cases: an ordinary address matches; an empty
      local part, an empty domain, and a blank in the local part do not. */
  lemma EmailPatternExamples()
    ensures MatchesPattern("g.o@e.c")
    ensures !MatchesPattern("@e")
    ensures !MatchesPattern("go@")
    ensures !MatchesPattern("g o@e")
  {
    EmailMatcherAgreesWithPattern("g.o@e.c");
    assert LocalThenDomain("o@e.c"[1..]);
    EmailMatcherAgreesWithPattern("@e");
    EmailMatcherAgreesWithPattern("go@");
    assert !LocalThenDomain("o@"[1..]);
    EmailMatcherAgreesWithPattern("g o@e");
    assert !LocalThenDomain("g o@e"[1..]);
  }
}

=== FILE: entities.dfy ===
/** The bookstore's records, the request and response records the services
    exchange, and the store the repositories together make up. */
module Entities {
  import opened Common
  import opened Tables

  /** A `LocalDate`; its contents never matter to the services. */
  datatype Date = Date(year: int, month: int, day: int)

  /** A book. `authors` holds the ids of the authors in its author
      collection, in the order they were added. */
  datatype Book = Book(title: string, genre: string, price: real, stock: int, authors: seq<int>)

  /** An author. `books` holds the ids of the books in its book collection. */
  datatype Author = Author(firstName: string, lastName: string, email: string, nationality: string, books: seq<int>)

  datatype Customer = Customer(firstName: string, lastName: string, email: string, phoneNumber: string, address: string)

  /** A purchase links one customer and one book, on the date it was
      recorded. */
  datatype Purchase = Purchase(customerId: int, bookId: int, purchaseDate: Date)

  /** An application user; `password` holds the encoded password. */
  datatype AppUser = AppUser(username: string, password: string, roles: string)

  /** `BookRequestDto`: price and stock are primitives, so they cannot be
      null. */
  datatype BookRequest = BookRequest(title: Option<string>, genre: Option<string>, price: real, stock: int)

  /** `AuthorRequestDto`, and the four author fields of `AuthorDto` that
      `AuthorService.update` reads. */
  datatype AuthorRequest = AuthorRequest(firstName: Option<string>, lastName: Option<string>, email: Option<string>, nationality: Option<string>)

  datatype CustomerRequest = CustomerRequest(
    firstName: Option<string>, lastName: Option<string>, email: Option<string>,
    phoneNumber: Option<string>, address: Option<string>)

  /** `PurchasedBookDto` as a request: only the customer and book ids are
      read. */
  datatype PurchaseRequest = PurchaseRequest(purchaseId: int, customerId: int, bookId: int, purchaseDate: Option<Date>)

  datatype AppUserRequest = AppUserRequest(username: Option<string>, password: Option<string>, roles: Option<string>)

  /** The `AuthorRequestDto` that a book's view lists for each of its
      authors. */
  datatype AuthorDetails = AuthorDetails(firstName: string, lastName: string, email: string, nationality: string)

  /** The `BookRequestDto` that an author's view lists for each of its
      books. */
  datatype BookDetails = BookDetails(title: string, price: real, genre: string, stock: int)

  /** `BookDto`. */
  datatype BookView = BookView(id: int, title: string, genre: string, price: real, stock: int, authors: seq<AuthorDetails>)

  /** `AuthorDto`. */
  datatype AuthorView = AuthorView(id: int, firstName: string, lastName: string, email: string, nationality: string, books: seq<BookDetails>)

  /** `CustomerDto`. */
  datatype CustomerView = CustomerView(
    id: int, firstName: string, lastName: string, fullName: string,
    email: string, phoneNumber: string, address: string)

  /** `PurchasedBookDto` as a response. */
  datatype PurchaseView = PurchaseView(purchaseId: int, purchaseDate: Date, customerId: int, bookId: int)

  /** `AppUserDto`: it has no password field. */
  datatype AppUserView = AppUserView(id: int, username: string, roles: string)

  /** The `UserDetails` built by `loadUserByUsername`, before the roles are
      split. */
  datatype UserDetails = UserDetails(username: string, password: string, roles: string)

  /** All repositories together. */
  datatype Store = Store(
    books: Table<Book>,
    authors: Table<Author>,
    customers: Table<Customer>,
    purchases: Table<Purchase>,
    users: Table<AppUser>)

  /** A successful state-changing call: the store after it and what it
      returned. */
  datatype Reply<V> = Reply(store: Store, view: V)

  /** Every author id listed by a book is a stored author, and every book id
      listed by an author is a stored book. */
  ghost predicate Linked(s: Store)
  {
    && (forall b, a :: b in s.books.rows && a in s.books.rows[b].authors ==> a in s.authors.rows)
    && (forall a, b :: a in s.authors.rows && b in s.authors.rows[a].books ==> b in s.books.rows)
  }

  /** Every stored book has a positive price and a non-negative stock. */
  ghost predicate BooksWellFormed(s: Store)
  {
    forall b :: b in s.books.rows ==> s.books.rows[b].price > 0.0 && s.books.rows[b].stock >= 0
  }

  /** Every purchase refers to a stored customer and a stored book. */
  ghost predicate PurchasesResolve(s: Store)
  {
    forall p :: p in s.purchases.rows ==>
      s.purchases.rows[p].customerId in s.customers.rows && s.purchases.rows[p].bookId in s.books.rows
  }
}

=== FILE: purchase_service.dfy ===
/** `PurchasedBookService`: recording that a customer bought a book, and the
    purchase delete and lookups. The current date is a parameter. */
module PurchaseService {
  import opened Common
  import opened Tables
  import opened Entities

  /** `toEntity`: the purchase links the resolved customer and book and is
      dated `today`; nothing else of the request is read. */
  function ToEntity(customerId: int, bookId: int, today: Date): (p: Purchase)
    ensures p.customerId == customerId && p.bookId == bookId && p.purchaseDate == today
  {
    Purchase(customerId, bookId, today)
  }

  /** `toDto`. */
  function ToView(id: int, p: Purchase): (v: PurchaseView)
    ensures v.purchaseId == id && v.purchaseDate == p.purchaseDate
    ensures v.customerId == p.customerId && v.bookId == p.bookId
  {
    PurchaseView(id, p.purchaseDate, p.customerId, p.bookId)
  }

  /** `getAll`: every stored purchase once, ascending by id. */
  function GetAll(s: Store): (r: seq<PurchaseView>)
    ensures |r| == |s.purchases.rows|
    ensures forall i :: 0 <= i < |r| ==>
      r[i].purchaseId in s.purchases.rows && r[i] == ToView(r[i].purchaseId, s.purchases.rows[r[i].purchaseId])
    ensures forall i, j :: 0 <= i < j < |r| ==> r[i].purchaseId < r[j].purchaseId
    ensures forall id :: id in s.purchases.rows ==> exists i :: 0 <= i < |r| && r[i].purchaseId == id
  {
    var ids := Ids(s.purchases);
    var r := ViewsOf(s, ids);
    assert forall k :: 0 <= k < |ids| ==> r[k].purchaseId == ids[k];
    r
  }

  /** The views of the listed rows, in the order listed. */
  function ViewsOf(s: Store, ids: seq<int>): (r: seq<PurchaseView>)
    requires forall i :: 0 <= i < |ids| ==> ids[i] in s.purchases.rows
    ensures |r| == |ids|
    ensures forall i :: 0 <= i < |ids| ==> r[i] == ToView(ids[i], s.purchases.rows[ids[i]])
  {
    seq(|ids|, i requires 0 <= i < |ids| => ToView(ids[i], s.purchases.rows[ids[i]]))
  }

  /** `getById`. */
  function GetById(s: Store, id: int): (r: Result<PurchaseView>)
    ensures r.Err? <==> id !in s.purchases.rows
    ensures r.Err? ==> r.error == NotFound("Purchase", id)
    ensures r.Ok? ==> r.value == ToView(id, s.purchases.rows[id])
  {
    match Get(s.purchases, id)
    case None => Err(NotFound("Purchase", id))
    case Some(p) => Ok(ToView(id, p))
  }

  /** `create`: the customer is resolved first, then the book; on success one
      purchase of that book by that customer, dated `today`, is added and
      nothing else changes (in particular no stock is taken). */
  function Create(s: Store, req: PurchaseRequest, today: Date): (r: Result<Reply<PurchaseView>>)
    ensures req.customerId !in s.customers.rows ==> r == Err(NotFound("Customer", req.customerId))
    ensures req.customerId in s.customers.rows && req.bookId !in s.books.rows ==>
      r == Err(NotFound("Book", req.bookId))
    ensures r.Ok? <==> req.customerId in s.customers.rows && req.bookId in s.books.rows
    ensures r.Ok? ==>
      var s', id := r.value.store, r.value.view.purchaseId;
      && s'.(purchases := s.purchases) == s
      && AddsOne(s.purchases, s'.purchases, id, Purchase(req.customerId, req.bookId, today))
      && r.value.view == PurchaseView(id, today, req.customerId, req.bookId)
    ensures r.Ok? && PurchasesResolve(s) ==> PurchasesResolve(r.value.store)
  {
    match Get(s.customers, req.customerId)
    case None => Err(NotFound("Customer", req.customerId))
    case Some(_) =>
      match Get(s.books, req.bookId)
      case None => Err(NotFound("Book", req.bookId))
      case Some(_) =>
        var purchase := ToEntity(req.customerId, req.bookId, today);
        var saved := Insert(s.purchases, purchase);
        Ok(Reply(s.(purchases := saved.table), ToView(saved.id, purchase)))
  }

  /** The purchase id and date a client sends have no effect: two requests
      for the same customer and book give the same result. */
  lemma CreateIgnoresClientIdAndDate(s: Store, req: PurchaseRequest, other: PurchaseRequest, today: Date)
    requires other.customerId == req.customerId && other.bookId == req.bookId
    ensures Create(s, req, today) == Create(s, other, today)
  {
  }

  /** `delete`: an absent id is an error; otherwise exactly that purchase is
      removed. */
  function Delete(s: Store, id: int): (r: Result<Store>)
    ensures r.Err? <==> id !in s.purchases.rows
    ensures r.Err? ==> r.error == NotFound("Purchase", id)
    ensures r.Ok? ==> r.value.(purchases := s.purchases) == s && r.value.purchases.rows == s.purchases.rows - {id}
    ensures r.Ok? && PurchasesResolve(s) ==> PurchasesResolve(r.value)
  {
    if id !in s.purchases.rows then Err(NotFound("Purchase", id))
    else Ok(s.(purchases := Remove(s.purchases, id)))
  }
}

=== FILE: scenarios.dfy ===
/** Properties that relate several service calls: what a later lookup sees
    after a create or delete, the email guard across calls, and the reuse of
    an author by `createBookWithNewAuthor`. */
module Scenarios {
  import opened Common
  import opened Tables
  import opened Entities
  import AuthorService
  import BookService
  import CustomerService
  import PurchaseService
  import AppUserService

  /** A created author is found by id with the view `create` returned. */
  lemma AuthorCreateThenGet(s: Store, req: AuthorRequest)
    requires AuthorService.Create(s, req).Ok?
    ensures
      var r := AuthorService.Create(s, req).value;
      AuthorService.GetById(r.store, r.view.id) == Ok(r.view)
  {
  }

  /** A created book is found by id with the view `create` returned. */
  lemma BookCreateThenGet(s: Store, req: BookRequest)
    requires BookService.Create(s, req).Ok?
    ensures
      var r := BookService.Create(s, req).value;
      BookService.GetById(r.store, r.view.id) == Ok(r.view)
  {
  }

  /** A created customer is found by id with the view `create` returned. */
  lemma CustomerCreateThenGet(s: Store, req: CustomerRequest)
    requires CustomerService.Create(s, req).Ok?
    ensures
      var r := CustomerService.Create(s, req).value;
      CustomerService.GetById(r.store, r.view.id) == Ok(r.view)
  {
  }

  /** A recorded purchase is found by id with the view `create` returned. */
  lemma PurchaseCreateThenGet(s: Store, req: PurchaseRequest, today: Date)
    requires PurchaseService.Create(s, req, today).Ok?
    ensures
      var r := PurchaseService.Create(s, req, today).value;
      PurchaseService.GetById(r.store, r.view.purchaseId) == Ok(r.view)
  {
  }

  /** A created user is found by id with the view `create` returned. */
  lemma AppUserCreateThenGet(s: Store, req: AppUserRequest, encode: string -> string)
    requires AppUserService.Create(s, req, encode).Ok?
    ensures
      var r := AppUserService.Create(s, req, encode).value;
      AppUserService.GetById(r.store, r.view.id) == Ok(r.view)
  {
  }

  /** After a successful delete of any kind, the id is not found, and a
      second delete of it fails. */
  lemma DeleteThenGetIsNotFound(s: Store, id: int)
    ensures AuthorService.Delete(s, id).Ok? ==>
      && AuthorService.GetById(AuthorService.Delete(s, id).value, id) == Err(NotFound("Author", id))
      && AuthorService.Delete(AuthorService.Delete(s, id).value, id) == Err(NotFound("Author", id))
    ensures BookService.Delete(s, id).Ok? ==>
      && BookService.GetById(BookService.Delete(s, id).value, id) == Err(NotFound("Book", id))
      && BookService.Delete(BookService.Delete(s, id).value, id) == Err(NotFound("Book", id))
    ensures CustomerService.Delete(s, id).Ok? ==>
      && CustomerService.GetById(CustomerService.Delete(s, id).value, id) == Err(NotFound("Customer", id))
      && CustomerService.Delete(CustomerService.Delete(s, id).value, id) == Err(NotFound("Customer", id))
    ensures PurchaseService.Delete(s, id).Ok? ==>
      && PurchaseService.GetById(PurchaseService.Delete(s, id).value, id) == Err(NotFound("Purchase", id))
      && PurchaseService.Delete(PurchaseService.Delete(s, id).value, id) == Err(NotFound("Purchase", id))
    ensures AppUserService.Delete(s, id).Ok? ==>
      && AppUserService.GetById(AppUserService.Delete(s, id).value, id) == Err(NotFound("User", id))
      && AppUserService.Delete(AppUserService.Delete(s, id).value, id) == Err(NotFound("AppUser", id))
  {
  }

  /** Once an author is created, a valid request with the same email is
      refused with `AlreadyExists` naming that email. */
  lemma {:induction false} AuthorEmailTakenAfterCreate(s: Store, req: AuthorRequest, again: AuthorRequest)
    requires AuthorService.Create(s, req).Ok?
    requires AuthorService.ValidateAuthorRequest(again).Pass? && again.email == req.email
    ensures
      AuthorService.Create(AuthorService.Create(s, req).value.store, again)
        == Err(AlreadyExists("Author", "email", req.email.value))
  {
    var r := AuthorService.Create(s, req).value;
    assert r.view.id in r.store.authors.rows && r.store.authors.rows[r.view.id].email == req.email.value;
    assert AuthorService.HasEmail(r.store.authors, req.email.value);
  }

  /** Once a customer is created, a complete request with the same email is
      refused with `AlreadyExists` naming that email. */
  lemma {:induction false} CustomerEmailTakenAfterCreate(s: Store, req: CustomerRequest, again: CustomerRequest)
    requires CustomerService.Create(s, req).Ok?
    requires CustomerService.Create(s, again).Ok? && again.email == req.email
    ensures
      CustomerService.Create(CustomerService.Create(s, req).value.store, again)
        == Err(AlreadyExists("Customer", "email", req.email.value))
  {
    var r := CustomerService.Create(s, req).value;
    assert r.view.id in r.store.customers.rows && r.store.customers.rows[r.view.id].email == req.email.value;
    assert CustomerService.HasEmail(r.store.customers, req.email.value);
  }

  /** Once a user is created, a complete request with the same username is
      refused with `AlreadyExists` naming that username. */
  lemma {:induction false} UsernameTakenAfterCreate(s: Store, req: AppUserRequest, again: AppUserRequest, encode: string -> string)
    requires AppUserService.Create(s, req, encode).Ok?
    requires AppUserService.Create(s, again, encode).Ok? && again.username == req.username
    ensures
      AppUserService.Create(AppUserService.Create(s, req, encode).value.store, again, encode)
        == Err(AlreadyExists("AppUser", "username", req.username.value))
  {
    var r := AppUserService.Create(s, req, encode).value;
    assert r.view.id in r.store.users.rows && r.store.users.rows[r.view.id].username == req.username.value;
    assert AppUserService.HasUsername(r.store.users, req.username.value);
  }

  /** When exactly one stored author has the request's email, the new book
      is linked to that author and no author is added. */
  lemma {:induction false} LinkedAuthorIsTheOneWithEmail(s: Store, book: BookRequest, author: AuthorRequest, id: int)
    requires BookService.CreateBookWithNewAuthor(s, book, author).Ok?
    requires id in s.authors.rows && s.authors.rows[id].email == author.email.value
    requires forall j :: j in s.authors.rows && s.authors.rows[j].email == author.email.value ==> j == id
    ensures
      var r := BookService.CreateBookWithNewAuthor(s, book, author).value;
      && r.store.authors == s.authors
      && r.store.books.rows[r.view.id].authors == [id]
  {
    var r := BookService.CreateBookWithNewAuthor(s, book, author).value;
    assert AuthorService.HasEmail(s.authors, author.email.value);
    var linked := r.store.books.rows[r.view.id].authors;
    assert linked == [linked[0]];
  }

  /** An author is created, then a book is created with an author request
      carrying the same email: no author is added, and the book's only
      author is the one created first. */
  lemma {:induction false} AuthorThenBookWithSameEmail(s: Store, author: AuthorRequest, book: BookRequest, again: AuthorRequest)
    requires AuthorService.Create(s, author).Ok?
    requires BookService.ValidateBookRequest(book).Pass?
    requires AuthorService.ValidateAuthorRequest(again).Pass? && again.email == author.email
    ensures
      var created := AuthorService.Create(s, author).value;
      var r := BookService.CreateBookWithNewAuthor(created.store, book, again);
      && r.Ok?
      && r.value.store.authors == created.store.authors
      && r.value.store.books.rows[r.value.view.id].authors == [created.view.id]
  {
    var created := AuthorService.Create(s, author).value;
    var s1, id := created.store, created.view.id;
    // only the new author has the email, since `create` found it free
    forall j | j in s1.authors.rows && s1.authors.rows[j].email == author.email.value
      ensures j == id
    {
      assert j != id ==> j in s.authors.rows;
    }
    LinkedAuthorIsTheOneWithEmail(s1, book, again, id);
  }

  /** Creating two books with the same new author email creates the author
      once: the second call adds no author and links the author the first
      call created. */
  lemma {:induction false} BookWithNewAuthorTwice(s: Store, first: BookRequest, second: BookRequest, author: AuthorRequest)
    requires BookService.CreateBookWithNewAuthor(s, first, author).Ok?
    requires BookService.ValidateBookRequest(second).Pass?
    ensures
      var r1 := BookService.CreateBookWithNewAuthor(s, first, author).value;
      var r2 := BookService.CreateBookWithNewAuthor(r1.store, second, author);
      && r2.Ok?
      && r2.value.store.authors == r1.store.authors
      && r2.value.store.books.rows[r2.value.view.id].authors == r1.store.books.rows[r1.view.id].authors
  {
    var e := author.email.value;
    var r1 := BookService.CreateBookWithNewAuthor(s, first, author).value;
    var aid := r1.store.books.rows[r1.view.id].authors[0];
    assert r1.store.books.rows[r1.view.id].authors == [aid];
    // after the first call, the linked author is the lowest id with the email
    assert forall other :: other in r1.store.authors.rows && r1.store.authors.rows[other].email == e ==> aid <= other;
    assert AuthorService.HasEmail(r1.store.authors, e);
    var r2 := BookService.CreateBookWithNewAuthor(r1.store, second, author).value;
    var aid2 := r2.store.books.rows[r2.view.id].authors[0];
    assert r2.store.books.rows[r2.view.id].authors == [aid2];
    assert aid2 <= aid;
  }

  /** `update` does not re-check the email: a store in which emails are
      unique can be updated into one in which two authors share an email. */
  lemma AuthorUpdateCanDuplicateEmail()
    ensures exists s: Store, id: int, req: AuthorRequest ::
      && AuthorService.EmailsUnique(s.authors)
      && AuthorService.Update(s, id, req).Ok?
      && !AuthorService.EmailsUnique(AuthorService.Update(s, id, req).value.store.authors)
  {
    var a := Author("A", "B", "a@x", "N", []);
    var b := Author("C", "D", "c@x", "N", []);
    var authors: Table<Author> := RawTable(map[1 := a, 2 := b], 3);
    var s := Store(Empty(), authors, Empty(), Empty(), Empty());
    var req := AuthorRequest(None, None, Some("a@x"), None);
    var after := AuthorService.Update(s, 2, req).value.store.authors;
    assert after.rows[1].email == after.rows[2].email;
    assert AuthorService.EmailsUnique(s.authors) by {
      assert s.authors.rows[1].email != s.authors.rows[2].email;
    }
  }

  /** The update merge of an author is idempotent, and an empty request
      leaves the author as stored. */
  lemma MergeAuthorIdempotent(a: Author, req: AuthorRequest)
    ensures AuthorService.MergeAuthor(AuthorService.MergeAuthor(a, req), req) == AuthorService.MergeAuthor(a, req)
    ensures req == AuthorRequest(None, None, None, None) ==> AuthorService.MergeAuthor(a, req) == a
  {
  }

  /** A book update must carry every required field: a request that sets
      only the stock is refused for its missing title. */
  lemma BookUpdateIsNotPartial(s: Store, id: int, stock: int)
    requires id in s.books.rows
    ensures BookService.Update(s, id, BookRequest(None, None, 0.0, stock)) == Err(Validation("title", None))
  {
  }
}

=== FILE: tables.dfy ===
/** A repository abstracted as a table from ids to rows plus the next id the
    store hands out (identity generation: ids start at 1 and grow). */
module Tables {
  import opened Common

  datatype RawTable<T> = RawTable(rows: map<int, T>, next: int)

  /** Every stored id is positive and below the next id to be handed out. */
  predicate WellNumbered<T>(t: RawTable<T>)
  {
    1 <= t.next && forall id :: id in t.rows ==> 1 <= id < t.next
  }

  type Table<T> = t: RawTable<T> | WellNumbered(t) witness RawTable(map[], 1)

  /** The result of saving a new row: the table after the save and the id
      assigned to the row. */
  datatype Saved<T> = Saved(table: Table<T>, id: int)

  /** `t'` is `t` with exactly one row added, under a fresh id. */
  ghost predicate AddsOne<T>(t: Table<T>, t': Table<T>, id: int, row: T)
  {
    id !in t.rows && t'.rows == t.rows[id := row]
  }

  function Empty<T>(): (t: Table<T>)
    ensures t.rows == map[]
  {
    RawTable(map[], 1)
  }

  /** `save` of a new entity: the row gets an id no stored row has. */
  function Insert<T>(t: Table<T>, row: T): (r: Saved<T>)
    ensures AddsOne(t, r.table, r.id, row)
    ensures t.next <= r.id
  {
    Saved(RawTable(t.rows[t.next := row], t.next + 1), t.next)
  }

  /** `save` of an entity that was fetched from the table. */
  function Put<T>(t: Table<T>, id: int, row: T): (r: Table<T>)
    requires id in t.rows
    ensures r.rows.Keys == t.rows.Keys
    ensures r.rows == t.rows[id := row]
  {
    RawTable(t.rows[id := row], t.next)
  }

  /** `deleteById`. */
  function Remove<T>(t: Table<T>, id: int): (r: Table<T>)
    ensures r.rows == t.rows - {id}
  {
    RawTable(t.rows - {id}, t.next)
  }

  /** `findById`. */
  function Get<T>(t: Table<T>, id: int): (r: Option<T>)
    ensures r.Some? <==> id in t.rows
    ensures r.Some? ==> r.value == t.rows[id]
  {
    if id in t.rows then Some(t.rows[id]) else None
  }

  ghost function KeysFrom<T>(t: Table<T>, lo: int): set<int>
  {
    set id | id in t.rows && lo <= id
  }

  /** The stored ids that are at least `lo`, in ascending order. */
  function IdsFrom<T>(t: Table<T>, lo: int): (ids: seq<int>)
    ensures forall id :: id in ids <==> id in t.rows && lo <= id
    ensures forall i :: 0 <= i < |ids| ==> lo <= ids[i]
    ensures forall i, j :: 0 <= i < j < |ids| ==> ids[i] < ids[j]
    decreases t.next - lo
  {
    if t.next <= lo then []
    else
      var rest := IdsFrom(t, lo + 1);
      if lo in t.rows then
        [lo] + rest
      else rest
  }

  lemma {:induction false} IdsFromCount<T>(t: Table<T>, lo: int)
    ensures |IdsFrom(t, lo)| == |KeysFrom(t, lo)|
    decreases t.next - lo
  {
    if t.next <= lo {
      assert KeysFrom(t, lo) == {};
    } else {
      IdsFromCount(t, lo + 1);
      KeysFromStep(t, lo);
    }
  }

  lemma KeysFromStep<T>(t: Table<T>, lo: int)
    ensures lo in t.rows ==> |KeysFrom(t, lo)| == |KeysFrom(t, lo + 1)| + 1
    ensures lo !in t.rows ==> KeysFrom(t, lo) == KeysFrom(t, lo + 1)
  {
    var rest := KeysFrom(t, lo + 1);
    if lo in t.rows {
      assert KeysFrom(t, lo) == rest + {lo};
    } else {
      assert KeysFrom(t, lo) == rest;
    }
  }

  /** The order in which `findAll` and `findAllById` list rows: every stored
      id exactly once, ascending. */
  function Ids<T>(t: Table<T>): (ids: seq<int>)
    ensures forall id :: id in ids <==> id in t.rows
    ensures forall i, j :: 0 <= i < j < |ids| ==> ids[i] < ids[j]
    ensures |ids| == |t.rows|
  {
    IdsFromCount(t, 1);
    assert KeysFrom(t, 1) == t.rows.Keys;
    IdsFrom(t, 1)
  }

  /** The first stored id at least `lo` whose row satisfies `p`. */
  function FindFrom<T>(t: Table<T>, p: T -> bool, lo: int): (r: Option<int>)
    ensures r.Some? ==> lo <= r.value && r.value in t.rows && p(t.rows[r.value])
    ensures r.Some? ==> forall id :: id in t.rows && lo <= id < r.value ==> !p(t.rows[id])
    ensures r.None? ==> forall id :: id in t.rows && lo <= id ==> !p(t.rows[id])
    decreases t.next - lo
  {
    if t.next <= lo then None
    else if lo in t.rows && p(t.rows[lo]) then Some(lo)
    else FindFrom(t, p, lo + 1)
  }

  /** A `findBy<Attribute>` query: the row with the lowest id satisfying `p`,
      if there is one. */
  function FindFirst<T>(t: Table<T>, p: T -> bool): (r: Option<int>)
    ensures r.Some? ==> r.value in t.rows && p(t.rows[r.value])
    ensures r.Some? ==> forall id :: id in t.rows && id < r.value ==> !p(t.rows[id])
    ensures r.None? <==> forall id :: id in t.rows ==> !p(t.rows[id])
  {
    FindFrom(t, p, 1)
  }

  ghost predicate Increasing(ids: seq<int>)
  {
    forall i, j :: 0 <= i < j < |ids| ==> ids[i] < ids[j]
  }

  /** The elements of `xs` that occur in `wanted`, in the order of `xs`. */
  function KeepIf(xs: seq<int>, wanted: seq<int>): (r: seq<int>)
    requires Increasing(xs)
    ensures forall x :: x in r <==> x in xs && x in wanted
    ensures forall i :: 0 <= i < |r| ==> r[i] in xs
    ensures Increasing(r)
  {
    if xs == [] then []
    else
      var rest := KeepIf(xs[1..], wanted);
      assert forall i :: 0 <= i < |rest| ==> xs[0] < rest[i] by {
        assert forall x :: x in xs[1..] ==> xs[0] < x;
      }
      if xs[0] in wanted then [xs[0]] + rest else rest
  }

  /** `findAllById`: the stored ids among `wanted`, each once, ascending;
      ids that are not stored are dropped. */
  function FindAllById<T>(t: Table<T>, wanted: seq<int>): (found: seq<int>)
    ensures forall id :: id in found <==> id in t.rows && id in wanted
    ensures Increasing(found)
  {
    KeepIf(Ids(t), wanted)
  }
}
